=== FILE: README.md ===
# Camera view model of the AR viewer's views panel

This project models the camera view model behind the views panel of the
viewer page, `app/public/views.js`, and proves properties of it. Everything
is written in Dafny. The page reads a list of named camera views from
`views.json`. It applies a view to a 3D model viewer by setting the camera
orbit, the camera target and the field of view. It also lets the user cycle
through the views with the arrow keys and download the views together with a
snapshot of the live camera.

The modules follow the structure of the script:

- `Results`: `Option`, `Result`, and the all-or-nothing `map` with a throwing callback.
- `Text`: the string primitives the orbit parser is built from:
  - JavaScript white space;
  - `trim`;
  - `split(/\s+/)`;
  - `join(" ")`;
  - `Words`, an independent reference definition of the maximal non-space runs.
- `JsArith`: JavaScript's truncating remainder `%`, on reals and on integers.
- `Geometry`:
  - points and numeric orbits;
  - `add`/`sub`;
  - the camera position derived from the orbit and target, and its inverse;
  - `wrapDeg`.
- `Orbits`: `splitOrbit`, `parseOrbitFlexible` over the four input shapes, and `orbitToString`.
- `Views`: the view record, the normalisation of one view file entry, and the all-or-nothing `loadViews`.
- `Applicator`: the abstract engine the page drives, and the traces of `applyView` and of the Apply Camera handler. A trace is the sequence of engine interactions. The engine remembers which attributes were written since the last settlement. Only a settlement (`await mv.updateComplete`) turns those pending attributes into live values. A live value whose attribute was not written stays as it is, for example an orbit the user dragged the camera to.
- `Apply`: `applyView` and the Apply Camera handler as functions from a starting engine state to their trace and the engine state they leave.
- `Navigation`: the Go button lookup, arrow-key cycling of the selection, and the selection after a load.
- `OrderedMaps`: a JavaScript `Map` as its insertion-ordered entries, with `set`, `get` and `new Map(pairs)`.
- `Export`: the camera snapshot, the merge by id of the download handler, and re-reading an exported entry.

The viewer element is not modelled as code. It appears as:

- the engine state;
- an orbit resolver `resolve`, which turns orbit text into a numeric orbit once layout is known;
- the spherical offset `offset`, which stands for the trigonometry of `sphericalOffsetMeters`;
- a `NumberFormat`, which stands for `` `${n}` ``, `toFixed` and the radian-to-degree conversion.

Several properties hold for any formatter whose output is a non-empty, space-free token (`Clean`).

## Notes on the code

- `splitOrbit` fails with its own message ("orbit must be 'theta phi radius'"), not with "Invalid orbit format". The model keeps the two errors apart: `NotThreeTokens` and `InvalidOrbitFormat`.
- The array form is not limited to exactly three items. Any array whose space-joined text has at least three words is accepted, and its first three words are used.
- Ids are not required to be unique on load: a file with a repeated id loads as written. Two places treat repeated ids differently:
  - the Go lookup and arrow cycling use the first view with an id (`RepeatedIdIsSkipped`);
  - the export keeps the last view with an id (`MergeById`).
- The snapshot's id is always `"current"`. `Merge` is stated for a record with any id, so it also covers a snapshot that shares its id with a loaded view.

## Model

| member | source | states |
|---|---|---|
| Results.TryMap | app/public/views.js:236-242 | the map succeeds exactly when every callback returns, and then holds each callback result in order |
| Text.SplitTrimmed | app/public/views.js:46 | `trim().split(/\s+/)` gives the words of the text, or `[""]` for text with no words |
| Text.WordsOfJoin | app/public/views.js:52 | the words of an array joined with spaces are the concatenated words of its items |
| Text.WordsOfTriple | app/public/views.js:340 | three tokens joined by single spaces have exactly those three words |
| JsArith.Rem360 | app/public/views.js:30 | the truncating `% 360` lies strictly between -360 and 360, has the sign of the dividend and differs from it by whole turns |
| JsArith.Rem | app/public/views.js:357 | the truncating `% n` on integers: below n in magnitude, sign of the dividend, differs from the dividend by a multiple of n, identity inside (-n, n), and subtracts n once in [n, 2n) |
| Geometry.SubUndoesAdd | app/public/views.js:41-42 | subtracting an offset undoes adding it |
| Geometry.AddUndoesSub | app/public/views.js:41-42 | adding an offset undoes subtracting it |
| Geometry.CameraPosition | app/public/views.js:163-166 | the camera sits at the target displaced by the orbit's offset, so removing the offset gives back the target |
| Geometry.TargetFor | app/public/views.js:269-273 | the derived target puts the camera exactly at the desired position under the orbit read |
| Geometry.TargetForUnique | app/public/views.js:269-273 | for a fixed orbit, a target places the camera at a point if and only if it is the derived target |
| Geometry.WrapDeg | app/public/views.js:30 | `wrapDeg(d)` lies in [0, 360) and differs from d by a whole number of turns |
| Geometry.WrapDegIsFloorMod | app/public/views.js:30 | `wrapDeg(d)` equals the floored remainder d - 360 * floor(d / 360) |
| Geometry.WrapDegIdempotent | app/public/views.js:30 | wrapping a wrapped angle changes nothing |
| Geometry.WrapDegPeriodic | app/public/views.js:30 | adding whole turns does not change the wrapped angle |
| Orbits.SplitOrbit | app/public/views.js:45-49 | succeeds exactly when the text has at least three white-space-separated words, then returns the first three; otherwise it fails with the "theta phi radius" error |
| Orbits.ParseOrbitFlexible | app/public/views.js:50-66 | the four-way dispatch: a string is split, an array is joined and split, the degree object gets deg/deg/m suffixes before the radian object is tried, and the radian object is converted to degrees with six decimals. Every other input fails with "Invalid orbit format", and a successful parse under a clean formatter yields tokens |
| Orbits.OrbitToString | app/public/views.js:34-35 | under a clean formatter the orbit text of the live camera has exactly three words, the formatted theta, phi and radius tokens, and so splits back into them |
| Orbits.FormatTokensClean | app/public/views.js:29-35 | under a clean formatter the rendered `…deg`, `…deg`, `…m` parts are non-empty and free of spaces |
| Orbits.SplitOrbitRoundTrip | app/public/views.js:45-48 | splitting `th + " " + ph + " " + r` returns exactly (th, ph, r) for non-empty space-free tokens |
| Orbits.ParseOrbitTextRoundTrip | app/public/views.js:51 | the flexible parser returns the tokens of an orbit string written from them |
| Orbits.SplitOrbitIgnoresExtras | app/public/views.js:46-48 | words after the third are ignored |
| Orbits.ParseArrayOfTokens | app/public/views.js:52 | an array of at least three tokens parses to its first three items |
| Orbits.ParseShortArray | app/public/views.js:52 | an array of fewer than three tokens is rejected by the splitter |
| Orbits.DegreeFormFirst | app/public/views.js:54-57 | an object with both key sets is read in the degree form: removing its radian members does not change the result |
| Orbits.ShapesAgree | app/public/views.js:50-56 | the degree object, the string of its tokens and the array of its tokens parse to the same triple |
| Orbits.ParserRejects | app/public/views.js:45-65 | two tokens fail with the splitter's error, while an empty object and a non-object fail with "Invalid orbit format" |
| Views.NormalizeFov | app/public/views.js:241 | a non-empty string fov is kept as it is, a truthy non-string becomes its rendering followed by "deg", and the fov is dropped exactly when it is missing, the empty string, or falsy |
| Views.LabelOrId | app/public/views.js:238 | a non-empty label is kept; a missing or empty label gives the id |
| Views.NormalizeView | app/public/views.js:236-242 | an entry loads exactly when its orbit parses. Then the view keeps the id and position, takes `label or id`, holds the parsed orbit and the normalised fov, and is normalised |
| Views.LoadViews | app/public/views.js:229-256 | a missing `views` array or any failing orbit leaves the collection empty; otherwise every entry is normalised, in order |
| Applicator.FovText | app/public/views.js:161 | the field-of-view text is the property when it is set, else the attribute when it is set, else "auto"; it is never empty |
| Applicator.Readouts | app/public/views.js:179-185 | the readouts show the live target, the field-of-view text, and a camera position whose offset from the target is the orbit's offset |
| Applicator.ReadoutsOrbit | app/public/views.js:181 | under a clean formatter the orbit readout splits into the formatted tokens of the live orbit |
| Applicator.ApplyEffect | app/public/views.js:260-281 | after the phases of `applyView` the live orbit is the resolved view orbit, the live target is the derived target when the view has a position, and the fov is the view's when it has one |
| Applicator.ApplyOrder | app/public/views.js:260-283 | the orbit is set first and only once, the numeric orbit is read exactly once and after that, target and fov writes carry the view's values, a jump occurs only in instant mode, and the refresh is last |
| Applicator.ApplyWrites | app/public/views.js:269-281 | a target write follows the read when the view has a three-element position, and a fov write follows when its fov is truthy |
| Applicator.ApplyCommitted | app/public/views.js:263-281 | every write is followed by a jump exactly in instant mode and then a settlement, and the orbit read follows a settlement and a frame and reports the live orbit |
| Applicator.ApplyPhases | app/public/views.js:263-282 | the orbit phase and the one read open the `applyView` trace; a target write can only come right after the read and a fov write only right after the target phase; nothing but the refresh follows the phases |
| Applicator.ApplyTraceOrder | app/public/views.js:260-283 | the `applyView` trace for the orbit read back keeps the ordering part of its protocol |
| Applicator.ViewTraceEffect | app/public/views.js:260-283 | the `applyView` trace starts with the orbit write and ends with the refresh of the engine it leaves; that engine holds the resolved view orbit, the camera at the view's position, and the view's fov |
| Applicator.ViewTraceProtocol | app/public/views.js:260-283 | the `applyView` trace keeps the protocol. It opens with the orbit write, a jump in instant mode, a settlement and a frame, followed by the only read, which reports the resolved view orbit. Every write is committed. The one target write comes right after the read and the one fov write right after the committed target write (or the read); each occurs exactly when the view asks for it and carries its values. No other action occurs, and the refresh comes only last |
| Apply.ApplyViewShowsFov | app/public/views.js:276-282 | after `applyView` of a view with a fov, the final refresh shows that fov |
| Apply.ApplyView | app/public/views.js:260-283 | the whole protocol of `ViewProtocol`: the orbit phase and the one read come first, then at most one target write derived from that read, then at most one fov write, each committed and present exactly when the view asks for it, with no other action, and the refresh last. Afterwards the camera stands at the view's position and the fov is the view's |
| Applicator.SettleThenRead | app/public/views.js:217-218 | a settlement and a read leave nothing pending, and the orbit is the resolved text only when an orbit write was pending |
| Applicator.CommitTargetKeepsOrbit | app/public/views.js:220-222 | a committed target write with no orbit write pending moves the target and keeps the orbit |
| Applicator.CameraTraceStart | app/public/views.js:217-218 | the Apply Camera trace settles first and then reads the orbit the settlement leaves: the resolved orbit text if an orbit write was pending, otherwise the live orbit as it was, for example where the user dragged it |
| Applicator.CameraTraceEnd | app/public/views.js:224 | the Apply Camera trace ends with a refresh of the engine it leaves |
| Applicator.CameraTraceKeepsOrbit | app/public/views.js:217-223 | after the Apply Camera trace the orbit is the one the first settlement left: the resolved text if an orbit write was pending, otherwise the orbit as it was, for example where the user dragged it |
| Applicator.CameraTraceEffect | app/public/views.js:218-223 | after the Apply Camera trace the camera stands at the requested position |
| Applicator.CameraTraceProtocol | app/public/views.js:217-224 | the one orbit read reports the live orbit; the only write comes right after it, carries the target derived from `p` and the orbit read, and is committed, with only the refresh after the commit |
| Apply.ApplyCamera | app/public/views.js:215-225 | the handler settles before it reads the orbit and keeps that orbit (a dragged orbit stays). Its one write, right after the read, is the target derived from the requested position and that orbit. The write is committed and followed only by the refresh, and the camera then stands at the requested position |
| Navigation.FindIndex | app/public/views.js:356 | the first index holding the id, or -1 exactly when no view has it |
| Navigation.Find | app/public/views.js:286 | no view is found exactly when no view has the id; a found view is the first view with the id |
| Navigation.Go | app/public/views.js:285-291 | an id that names no view does nothing; otherwise the first view with that id is applied, with every guarantee of `applyView` (`ViewApplied`) |
| Navigation.NextIndex | app/public/views.js:357 | the next index lies in [0, n). Right advances and wraps at the end; Left goes back and wraps from 0 to n - 1; from no selection, Right gives 0 and Left gives n - 2 (0 when n is 1) |
| Navigation.LeftUndoesRight | app/public/views.js:357 | one Left press undoes one Right press and the other way round |
| Navigation.FullCycle | app/public/views.js:357 | n presses of the same arrow key return to the starting index |
| Navigation.KeyDown | app/public/views.js:353-363 | with no views or another key nothing happens; an arrow key selects the id at the next index and applies the first view with that id, with every guarantee of `applyView` |
| Navigation.FindIndexOfUnique | app/public/views.js:356 | with unique ids, looking up a view's id finds that view's index |
| Navigation.CycleReturns | app/public/views.js:353-359 | with unique ids, as many presses of one arrow key as there are views return to the same selection |
| Navigation.RepeatedIdIsSkipped | app/public/views.js:356-358 | with a repeated id, cycling right never reaches the later copy and Go applies the first |
| Navigation.InitialSelection | app/public/views.js:251 | after a load with views the selection names the first view; after a load without views it is unchanged |
| OrderedMaps.Get | app/public/views.js:329-330 | a key has a value exactly when it is present, and the value is one stored under it |
| OrderedMaps.Put | app/public/views.js:330 | `set` on a present key keeps the key order; on a new key it appends the pair |
| OrderedMaps.PutGet | app/public/views.js:330 | after `set`, `get` returns the new value for that key and the old value for every other key |
| OrderedMaps.PutDistinct | app/public/views.js:330 | `set` keeps the keys distinct |
| OrderedMaps.GetAtSlot | app/public/views.js:336 | with distinct keys, each slot holds the value `get` returns for its key |
| OrderedMaps.Dedup | app/public/views.js:329 | the first-occurrence order holds every key once and no other |
| OrderedMaps.FromPairsKeys | app/public/views.js:329 | `new Map(pairs)` has the pairs' keys in order of first occurrence |
| OrderedMaps.FromPairsGet | app/public/views.js:329 | `new Map(pairs)` holds for each key the value of its last pair |
| Export.Snapshot | app/public/views.js:318-327 | the snapshot is "current"/"Current" with a three-element position. With exact rounding, that position minus the orbit offset is the live target. Its orbit text splits into the formatted tokens, and its fov is never empty |
| Export.EntryOf | app/public/views.js:337-342 | an entry keeps id, position and fov, takes the label when it is non-empty and the id otherwise, and writes a parsed orbit as text whose words are exactly the record's three tokens, so it splits back into them |
| Export.MergeById | app/public/views.js:329-343 | exported ids are unique and are the views' ids in first-occurrence order, with "current" in place or appended. The one "current" entry carries the snapshot, and every other entry carries the last view with its id |
| Export.Download | app/public/views.js:317-343 | the document has schema version 4, "position+orbit" and "meters"; its views are the merge of the loaded views with the snapshot (so `MergeById` describes them), with unique ids and exactly one "current" entry holding the snapshot |
| Export.LoadedViewReloads | app/public/views.js:336-342 | a loaded view written by the download and read back by the loader is the same view |
| Export.SnapshotReloads | app/public/views.js:321-327 | the exported snapshot reads back as a view with the live camera's formatted orbit and fov |

## Left out

- Page construction, CSS, the collapse and fullscreen toggles and the event wiring (lines 9-25, 69-156, 187-189) are interface plumbing.
- `fetch`, `res.json()`, `prompt`, `alert`, the clipboard, and the `Blob` and object-URL download are I/O. The parsed file is an input (`Option<seq<RawView>>`, `None` for a failed fetch or a missing `views` array), and the download yields the document value.
- The copy handler (lines 294-314) and the "c" shortcut (lines 360-362) only build a view for the clipboard. They are left out; the snapshot they share with the download is modelled in `Export.Snapshot`.
- The Apply Orbit, Apply FOV and Apply Target handlers (lines 192-212) are not part of this model. Each is one attribute write followed by a commit and a refresh, as in `ApplyCamera`.
- `sphericalOffsetMeters`, `Math.sin`/`Math.cos` and `RAD2DEG` are floating-point trigonometry. They are the parameters `offset` and `NumberFormat.rad2deg`.
- `toFixed` and template rendering of numbers in orbit text are the `NumberFormat` parameter. Properties that depend on the tokens being space-free assume a `Clean` formatter.
- Geometry.CameraPosition: points are exact reals, so the double rounding of `+` and `-` in `add` and `sub` is not modelled. The inverse laws (`SubUndoesAdd`, `AddUndoesSub`, `TargetFor`) and the camera-at-position properties of `ApplyView` and `ApplyCamera` hold exactly only over reals. In doubles, `add(sub(p, off), off)` can differ from `p`.
- Applicator.Readouts: the target and camera readouts are kept as exact points, not as the `Number(x).toFixed(6)` text of the input fields. The law that the camera minus the orbit offset is the target holds for those exact points only; it ignores that six-decimal rendering. The `fieldOfView` property is modelled as text, so the `${…}deg` branch that formats a numeric field of view (lines 182, 308 and 326) is not modelled; a numeric field of view is not distinguished from its text.
- Geometry.WrapDeg: computed on exact reals, so the floating-point rounding of `%` and `+` is not modelled.
- Export.Snapshot: the six-decimal rounding `Number(x.toFixed(6))` is the parameter `round`. The camera-position property is stated for exact rounding only.
- Apply.ApplyView: the engine is assumed to resolve the orbit from the `camera-orbit` attribute alone. Settling a target or fov write therefore never changes the live orbit, and the camera-position property depends on that. Any re-framing the real viewer does after a target or fov change is not modelled.
- Apply.ApplyCamera: the same assumption applies. Settling the target write keeps the orbit that was read. A user drag is modelled only as a starting engine whose live orbit differs from its attribute, with no orbit write pending. Drags during the handler's awaits are not modelled.
- Apply.ApplyView: the target is written as an exact point, not as `fmtM` text with six decimals, so the camera-position property ignores that rounding.
- Apply.ApplyCamera: the input fields are read as reals; `Number()` of text that is not a number (NaN) is not modelled.
- Views.LoadViews: positions are sequences of reals. `Number()` of non-numeric position items, and ids or labels that are not strings, are not modelled.
- Orbits.ParseOrbitFlexible: object members are reals rendered by `NumberFormat.show`. Members of other JavaScript types, and the `in` test on inherited keys, are not modelled.
- The asynchrony of `updateComplete`, `requestAnimationFrame` and the disabling of the Go button appears only as `Settle` and `Frame` events in a trace. Interleaved apply calls are not modelled.
- The animated transition is not modelled: `Jump` leaves the modelled engine state unchanged, and only `Settle` moves attributes into live values.
- `app/main.py`, the static file server, is not part of this model.

=== FILE: applicator.dfy ===
/**
  The engine the view applicator drives, and the traces of `applyView` and
  the Apply Camera handler: every engine interaction, in order. The engine
  keeps the attributes last written apart from the live values it reports,
  and remembers which attributes were written since the last settlement.
  Only a settlement (`await updateComplete`) carries those pending attributes
  over into the live values, resolving orbit text (which may give the radius
  as a percentage) into a numeric orbit; a live value whose attribute was
  not written, such as an orbit the user dragged to, stays as it is.
 */
module Applicator {
  import opened Results
  import opened Geometry
  import opened Orbits
  import opened Views

  /** The rendering engine as this code observes it. */
  datatype Engine = Engine(
    orbitAttr: string,    // `camera-orbit` attribute last written
    targetAttr: Point3,   // `camera-target` attribute last written
    fovAttr: string,      // `field-of-view` attribute last written, "" when absent
    orbit: Orbit,         // what `getCameraOrbit()` reports
    target: Point3,       // what `getCameraTarget()` reports
    fov: string,          // the `fieldOfView` property, "" when unset
    orbitPending: bool,   // `camera-orbit` written since the last settlement
    targetPending: bool,  // `camera-target` written since the last settlement
    fovPending: bool)     // `field-of-view` written since the last settlement

  /** The engine's resolution of orbit text into a numeric orbit once layout is known. */
  type Resolver = string -> Orbit

  /** What the panel shows after `refreshOutputs`. */
  datatype Readout = Readout(orbit: string, fov: string, target: Point3, camera: Point3)

  /** One interaction with the engine. */
  datatype Action =
    | SetOrbit(text: string)      // setAttribute("camera-orbit", …)
    | SetTarget(p: Point3)        // setAttribute("camera-target", …)
    | SetFov(text: string)        // setAttribute("field-of-view", …)
    | Jump                        // jumpCameraToGoal()
    | Settle                      // await updateComplete
    | Frame                       // await one animation frame
    | ReadOrbit(o: Orbit)         // getCameraOrbit()
    | Refresh(shown: Readout)     // refreshOutputs()

  predicate IsSet(a: Action) {
    a.SetOrbit? || a.SetTarget? || a.SetFov?
  }

  /** The effect of one action on the engine. */
  function Step(e: Engine, a: Action, resolve: Resolver): Engine {
    match a
    case SetOrbit(s) => e.(orbitAttr := s, orbitPending := true)
    case SetTarget(p) => e.(targetAttr := p, targetPending := true)
    case SetFov(s) => e.(fovAttr := s, fovPending := true)
    case Settle =>
      e.(orbit := if e.orbitPending then resolve(e.orbitAttr) else e.orbit,
         target := if e.targetPending then e.targetAttr else e.target,
         fov := if e.fovPending then e.fovAttr else e.fov,
         orbitPending := false, targetPending := false, fovPending := false)
    case _ => e
  }

  /** The engine after a whole trace, actions taking effect in order. */
  function Replay(e: Engine, t: seq<Action>, resolve: Resolver): Engine
    decreases |t|
  {
    if t == [] then e else Replay(Step(e, t[0], resolve), t[1..], resolve)
  }

  /** Replaying two traces one after the other is replaying their concatenation. */
  lemma {:induction false} ReplayConcat(e: Engine, a: seq<Action>, b: seq<Action>, resolve: Resolver)
    ensures Replay(e, a + b, resolve) == Replay(Replay(e, a, resolve), b, resolve)
    decreases |a|
  {
    if a == [] {
      assert a + b == b;
    } else {
      assert (a + b)[0] == a[0];
      assert (a + b)[1..] == a[1..] + b;
      ReplayConcat(Step(e, a[0], resolve), a[1..], b, resolve);
    }
  }

  lemma CommitBlock(a: Action, instant: bool)
    requires IsSet(a)
    ensures AllCommitted(CommitActions(a, instant), instant)
    ensures NoReads(CommitActions(a, instant))
  {
  }

  lemma ReplaySingle(e: Engine, a: Action, resolve: Resolver)
    ensures Replay(e, [a], resolve) == Step(e, a, resolve)
  {
    assert [a][1..] == [];
  }

  /** A refresh at the end of a trace leaves the engine as the trace left it. */
  lemma ReplayRefresh(e: Engine, t: seq<Action>, shown: Readout, resolve: Resolver)
    ensures Replay(e, t + [Refresh(shown)], resolve) == Replay(e, t, resolve)
  {
    ReplayConcat(e, t, [Refresh(shown)], resolve);
    ReplaySingle(Replay(e, t, resolve), Refresh(shown), resolve);
  }

  /** `getFovStr`: the field-of-view property, else the attribute, else "auto". */
  function FovText(e: Engine): (s: string)
    ensures s != ""
    ensures e.fov != "" ==> s == e.fov
    ensures e.fov == "" && e.fovAttr != "" ==> s == e.fovAttr
    ensures e.fov == "" && e.fovAttr == "" ==> s == "auto"
  {
    if e.fov != "" then e.fov else if e.fovAttr != "" then e.fovAttr else "auto"
  }

  /** `refreshOutputs`: the live orbit, fov, target and the camera position derived from them. */
  function Readouts(e: Engine, offset: OffsetFn, f: NumberFormat): (r: Readout)
    ensures r.target == e.target
    ensures r.fov == FovText(e)
    ensures Sub(r.camera, offset(e.orbit)) == r.target
  {
    Readout(OrbitToString(f, e.orbit), FovText(e), e.target, CameraPosition(e.orbit, e.target, offset))
  }

  /** Under a clean formatter the orbit readout splits back into the formatted tokens of the live orbit. */
  lemma ReadoutsOrbit(e: Engine, offset: OffsetFn, f: NumberFormat)
    requires Clean(f)
    ensures SplitOrbit(Readouts(e, offset, f).orbit) == Ok(FormatTokens(f, e.orbit))
  {
  }

  /** Every orbit read reports the live orbit at that point of the trace. */
  predicate ReadsAreLive(e: Engine, t: seq<Action>, resolve: Resolver) {
    forall i :: 0 <= i < |t| && t[i].ReadOrbit? ==> t[i].o == Replay(e, t[..i], resolve).orbit
  }

  /** The write at `i` is followed by a jump exactly in instant mode, then by a settlement. */
  predicate CommittedAt(t: seq<Action>, i: int, instant: bool)
    requires 0 <= i < |t|
  {
    if instant then i + 2 < |t| && t[i + 1] == Jump && t[i + 2] == Settle
    else i + 1 < |t| && t[i + 1] == Settle
  }

  /** An orbit is read only right after a settlement and a frame. */
  predicate ReadAfterSettleAndFrame(t: seq<Action>) {
    forall i :: 0 <= i < |t| && t[i].ReadOrbit? ==> i >= 2 && t[i - 1] == Frame && t[i - 2] == Settle
  }

  /** Every write in the trace is committed. */
  predicate AllCommitted(t: seq<Action>, instant: bool) {
    forall i :: 0 <= i < |t| && IsSet(t[i]) ==> CommittedAt(t, i, instant)
  }

  predicate NoReads(t: seq<Action>) {
    forall i :: 0 <= i < |t| ==> !t[i].ReadOrbit?
  }

  /** Traces whose writes are committed compose. */
  lemma CommittedConcat(a: seq<Action>, b: seq<Action>, instant: bool)
    requires AllCommitted(a, instant) && AllCommitted(b, instant)
    ensures AllCommitted(a + b, instant)
  {
    var t := a + b;
    forall i | 0 <= i < |t| && IsSet(t[i])
      ensures CommittedAt(t, i, instant)
    {
      if i < |a| {
        assert CommittedAt(a, i, instant);
      } else {
        assert t[i] == b[i - |a|];
        assert CommittedAt(b, i - |a|, instant);
      }
    }
  }

  /** Reads that follow a settlement and a frame still do when more actions come around them. */
  lemma ReadsConcat(a: seq<Action>, b: seq<Action>, e: Engine, resolve: Resolver)
    requires ReadAfterSettleAndFrame(a) && ReadsAreLive(e, a, resolve) && NoReads(b)
    ensures ReadAfterSettleAndFrame(a + b) && ReadsAreLive(e, a + b, resolve)
  {
    var t := a + b;
    forall i | 0 <= i < |t| && t[i].ReadOrbit?
      ensures i >= 2 && t[i - 1] == Frame && t[i - 2] == Settle
      ensures t[i].o == Replay(e, t[..i], resolve).orbit
    {
      assert t[..i] == a[..i];
    }
  }

  /** The actions of one committed write: the write, a jump in instant mode, a settlement. */
  function CommitActions(a: Action, instant: bool): seq<Action> {
    [a] + (if instant then [Jump] else []) + [Settle]
  }

  /** After a committed write the live values reflect the written attribute. */
  lemma ReplayCommit(e: Engine, a: Action, instant: bool, resolve: Resolver)
    ensures Replay(e, CommitActions(a, instant), resolve) == Step(Step(e, a, resolve), Settle, resolve)
  {
    var e1 := Step(e, a, resolve);
    var e2 := Step(e1, Settle, resolve);
    assert Replay(e2, [], resolve) == e2;
    assert Replay(e1, [Settle], resolve) == e2 by {
      assert [Settle][1..] == [];
    }
    if instant {
      assert Replay(e1, [Jump, Settle], resolve) == e2 by {
        assert [Jump, Settle][1..] == [Settle];
      }
      assert CommitActions(a, instant) == [a, Jump, Settle];
      assert [a, Jump, Settle][1..] == [Jump, Settle];
    } else {
      assert CommitActions(a, instant) == [a, Settle];
      assert [a, Settle][1..] == [Settle];
    }
  }

  /** The orbit phase of `applyView`: write the orbit, settle, and wait one frame. */
  function OrbitPhase(v: View, instant: bool): seq<Action> {
    CommitActions(SetOrbit(OrbitText(v.orbit)), instant) + [Frame]
  }

  /** The target phase: present only for a view with a three-element position. */
  function TargetPhase(v: View, o: Orbit, offset: OffsetFn, instant: bool): seq<Action> {
    if HasPosition(v) then CommitActions(SetTarget(TargetFor(PositionPoint(v), o, offset)), instant) else []
  }

  /** The field-of-view phase: present only for a view with a non-empty fov. */
  function FovPhase(v: View, instant: bool): seq<Action> {
    if HasFov(v) then CommitActions(SetFov(v.fov.value), instant) else []
  }

  /** The engine effect of the phases of `applyView`. */
  lemma ApplyEffect(v: View, instant: bool, e0: Engine, resolve: Resolver, offset: OffsetFn)
    ensures Replay(e0, OrbitPhase(v, instant), resolve).orbit == resolve(OrbitText(v.orbit))
    ensures
      var o := resolve(OrbitText(v.orbit));
      var e := Replay(e0, OrbitPhase(v, instant) + [ReadOrbit(o)] + TailPhases(v, o, offset, instant), resolve);
      && e.orbitAttr == OrbitText(v.orbit) && e.orbit == o
      && (HasPosition(v) ==> e.target == TargetFor(PositionPoint(v), o, offset))
      && (HasFov(v) ==> e.fov == v.fov.value)
  {
    var text := OrbitText(v.orbit);
    var orbitPhase := CommitActions(SetOrbit(text), instant);
    ReplayCommit(e0, SetOrbit(text), instant, resolve);
    ReplayConcat(e0, orbitPhase, [Frame], resolve);
    ReplaySingle(Replay(e0, orbitPhase, resolve), Frame, resolve);
    var settled := OrbitPhase(v, instant);
    var o := resolve(text);
    var read := settled + [ReadOrbit(o)];
    ReplayConcat(e0, settled, [ReadOrbit(o)], resolve);
    ReplaySingle(Replay(e0, settled, resolve), ReadOrbit(o), resolve);
    var e1 := Replay(e0, read, resolve);
    var targetPhase := TargetPhase(v, o, offset, instant);
    if HasPosition(v) {
      ReplayCommit(e1, SetTarget(TargetFor(PositionPoint(v), o, offset)), instant, resolve);
    }
    ReplayConcat(e0, read, targetPhase, resolve);
    var e2 := Replay(e0, read + targetPhase, resolve);
    if HasFov(v) {
      ReplayCommit(e2, SetFov(v.fov.value), instant, resolve);
    }
    ReplayConcat(e0, read + targetPhase, FovPhase(v, instant), resolve);
    assert read + TailPhases(v, o, offset, instant) == read + targetPhase + FovPhase(v, instant);
  }

  /** The phases after the orbit read: the target phase, then the field-of-view phase. */
  function TailPhases(v: View, o: Orbit, offset: OffsetFn, instant: bool): seq<Action> {
    TargetPhase(v, o, offset, instant) + FovPhase(v, instant)
  }

  /** The whole trace of `applyView`, for the orbit `o` read back and the final refresh. */
  function ApplyTrace(v: View, instant: bool, o: Orbit, offset: OffsetFn, refresh: Action): seq<Action> {
    OrbitPhase(v, instant) + [ReadOrbit(o)] + TailPhases(v, o, offset, instant) + [refresh]
  }

  /** An action that may follow the orbit write inside the orbit phase. */
  predicate OrbitPhaseAction(a: Action, instant: bool) {
    (a == Jump && instant) || a == Settle || a == Frame
  }

  /** An action of the target or field-of-view phase, with the values `applyView` writes. */
  predicate TailAction(a: Action, v: View, o: Orbit, offset: OffsetFn, instant: bool) {
    match a
    case SetTarget(p) => HasPosition(v) && p == TargetFor(PositionPoint(v), o, offset)
    case SetFov(s) => HasFov(v) && s == v.fov.value
    case Jump => instant
    case Settle => true
    case _ => false
  }

  lemma OrbitPhaseShape(v: View, instant: bool)
    ensures
      var p := OrbitPhase(v, instant);
      && |p| >= 3 && p[0] == SetOrbit(OrbitText(v.orbit))
      && p[|p| - 1] == Frame && p[|p| - 2] == Settle
      && forall i :: 0 < i < |p| ==> OrbitPhaseAction(p[i], instant)
  {
    var a := SetOrbit(OrbitText(v.orbit));
    if instant {
      assert OrbitPhase(v, instant) == [a, Jump, Settle, Frame];
    } else {
      assert OrbitPhase(v, instant) == [a, Settle, Frame];
    }
  }

  lemma TailShape(v: View, o: Orbit, offset: OffsetFn, instant: bool)
    ensures
      var tail := TailPhases(v, o, offset, instant);
      var k := |TargetPhase(v, o, offset, instant)|;
      && k <= |tail|
      && (forall i :: 0 <= i < |tail| ==> TailAction(tail[i], v, o, offset, instant))
      && (HasPosition(v) ==> k > 0 && tail[0].SetTarget?)
      && (HasFov(v) ==> k < |tail| && tail[k].SetFov?)
  {
    var tp := TargetPhase(v, o, offset, instant);
    var fp := FovPhase(v, instant);
    var tail := TailPhases(v, o, offset, instant);
    assert forall i :: 0 <= i < |tp| ==> TailAction(tp[i], v, o, offset, instant) by {
      if HasPosition(v) {
        var a := SetTarget(TargetFor(PositionPoint(v), o, offset));
        assert tp == if instant then [a, Jump, Settle] else [a, Settle];
      }
    }
    assert forall i :: 0 <= i < |fp| ==> TailAction(fp[i], v, o, offset, instant) by {
      if HasFov(v) {
        var a := SetFov(v.fov.value);
        assert fp == if instant then [a, Jump, Settle] else [a, Settle];
      }
    }
    forall i | 0 <= i < |tail|
      ensures TailAction(tail[i], v, o, offset, instant)
    {
      if i < |tp| {
        assert tail[i] == tp[i];
      } else {
        assert tail[i] == fp[i - |tp|];
      }
    }
    if HasFov(v) {
      assert tail[|tp|] == fp[0];
    }
  }

  /** In the phases after the read, the target write can only open the target phase and the fov write only open the fov phase. */
  lemma TailOrder(v: View, o: Orbit, offset: OffsetFn, instant: bool)
    ensures
      var tail := TailPhases(v, o, offset, instant);
      var k := |TargetPhase(v, o, offset, instant)|;
      forall i :: 0 <= i < |tail| ==> (tail[i].SetTarget? ==> i == 0) && (tail[i].SetFov? ==> i == k)
  {
    var tp := TargetPhase(v, o, offset, instant);
    var fp := FovPhase(v, instant);
    var tail := TailPhases(v, o, offset, instant);
    forall i | 0 <= i < |tail|
      ensures tail[i].SetTarget? ==> i == 0
      ensures tail[i].SetFov? ==> i == |tp|
    {
      if i < |tp| {
        assert tail[i] == tp[i];
        assert !tp[i].SetFov? && (tp[i].SetTarget? ==> i == 0) by {
          if HasPosition(v) {
            var a := SetTarget(TargetFor(PositionPoint(v), o, offset));
            assert tp == if instant then [a, Jump, Settle] else [a, Settle];
          }
        }
      } else {
        assert tail[i] == fp[i - |tp|];
        assert !fp[i - |tp|].SetTarget? && (fp[i - |tp|].SetFov? ==> i == |tp|) by {
          if HasFov(v) {
            var a := SetFov(v.fov.value);
            assert fp == if instant then [a, Jump, Settle] else [a, Settle];
          }
        }
      }
    }
  }

  /** Where each index of the `applyView` trace falls among its phases. */
  lemma ApplyTraceAt(v: View, instant: bool, o: Orbit, offset: OffsetFn, refresh: Action, i: int)
    requires 0 <= i < |ApplyTrace(v, instant, o, offset, refresh)|
    ensures
      var t := ApplyTrace(v, instant, o, offset, refresh);
      var p := OrbitPhase(v, instant);
      var tail := TailPhases(v, o, offset, instant);
      && |t| == |p| + |tail| + 2
      && (i < |p| ==> t[i] == p[i])
      && (i == |p| ==> t[i] == ReadOrbit(o))
      && (|p| < i < |t| - 1 ==> t[i] == tail[i - |p| - 1])
      && (i == |t| - 1 ==> t[i] == refresh)
  {
  }

  /** Which actions occur where in the `applyView` trace. */
  lemma ApplyOrder(v: View, instant: bool, o: Orbit, offset: OffsetFn, refresh: Action)
    requires refresh.Refresh?
    ensures
      var t := ApplyTrace(v, instant, o, offset, refresh);
      var r := |OrbitPhase(v, instant)|;
      && |t| >= 5 && t[0] == SetOrbit(OrbitText(v.orbit))
      && (forall i :: 0 < i < |t| ==> !t[i].SetOrbit?)
      && (forall i :: 0 <= i < |t| && t[i] == Jump ==> instant)
      && 0 < r < |t| && t[r] == ReadOrbit(o)
      && (forall i :: 0 <= i < |t| && t[i].ReadOrbit? ==> i == r)
      && (forall i :: 0 <= i < |t| && t[i].SetTarget? ==>
            i > r && HasPosition(v) && t[i].p == TargetFor(PositionPoint(v), o, offset))
      && (forall i :: 0 <= i < |t| && t[i].SetFov? ==> HasFov(v) && t[i].text == v.fov.value)
      && t[|t| - 1] == refresh
      && (forall i :: 0 <= i < |t| - 1 ==> !t[i].Refresh?)
  {
    var t := ApplyTrace(v, instant, o, offset, refresh);
    var p := OrbitPhase(v, instant);
    var tail := TailPhases(v, o, offset, instant);
    OrbitPhaseShape(v, instant);
    TailShape(v, o, offset, instant);
    ApplyTraceAt(v, instant, o, offset, refresh, 0);
    ApplyTraceAt(v, instant, o, offset, refresh, |p|);
    ApplyTraceAt(v, instant, o, offset, refresh, |t| - 1);
    forall i | 0 <= i < |t|
      ensures i > 0 ==> !t[i].SetOrbit?
      ensures t[i] == Jump ==> instant
      ensures t[i].ReadOrbit? ==> i == |p|
      ensures t[i].SetTarget? ==> i > |p| && HasPosition(v) && t[i].p == TargetFor(PositionPoint(v), o, offset)
      ensures t[i].SetFov? ==> HasFov(v) && t[i].text == v.fov.value
      ensures i < |t| - 1 ==> !t[i].Refresh?
    {
      ApplyTraceAt(v, instant, o, offset, refresh, i);
      if 0 < i < |p| {
        assert OrbitPhaseAction(p[i], instant);
      } else if |p| < i < |t| - 1 {
        assert TailAction(tail[i - |p| - 1], v, o, offset, instant);
      }
    }
  }

  /**
    The phases of `applyView` come in order: the orbit phase and the one
    read open the trace, a target write can only come right after the read,
    a fov write only right after the target phase, and nothing but the
    refresh follows the phases.
   */
  lemma ApplyPhases(v: View, instant: bool, o: Orbit, offset: OffsetFn, refresh: Action)
    requires refresh.Refresh?
    ensures
      var t := ApplyTrace(v, instant, o, offset, refresh);
      var r := |OrbitPhase(v, instant)|;
      var k := |TargetPhase(v, o, offset, instant)|;
      && r < |t| && t[..r + 1] == OrbitPhase(v, instant) + [ReadOrbit(o)]
      && |t| == r + 2 + k + |FovPhase(v, instant)|
      && (forall i :: 0 <= i < |t| && t[i].SetTarget? ==> i == r + 1)
      && (forall j :: 0 <= j < |t| && t[j].SetFov? ==> j == r + 1 + k)
  {
    var t := ApplyTrace(v, instant, o, offset, refresh);
    var p := OrbitPhase(v, instant);
    var r := |p|;
    var k := |TargetPhase(v, o, offset, instant)|;
    OrbitPhaseShape(v, instant);
    TailOrder(v, o, offset, instant);
    assert t[..r + 1] == p + [ReadOrbit(o)];
    ApplyTraceAt(v, instant, o, offset, refresh, 0);
    forall i | 0 <= i < |t|
      ensures t[i].SetTarget? ==> i == r + 1
      ensures t[i].SetFov? ==> i == r + 1 + k
    {
      ApplyTraceAt(v, instant, o, offset, refresh, i);
      if 0 < i < r {
        assert OrbitPhaseAction(p[i], instant);
      }
    }
  }

  /** The target and field-of-view writes of `applyView` are present exactly when the view asks for them. */
  lemma ApplyWrites(v: View, instant: bool, o: Orbit, offset: OffsetFn, refresh: Action)
    ensures
      var t := ApplyTrace(v, instant, o, offset, refresh);
      var r := |OrbitPhase(v, instant)|;
      && (HasPosition(v) ==> r + 1 < |t| && t[r + 1].SetTarget?)
      && (HasFov(v) ==> r + 1 + |TargetPhase(v, o, offset, instant)| < |t| && t[r + 1 + |TargetPhase(v, o, offset, instant)|].SetFov?)
  {
    var p := OrbitPhase(v, instant);
    TailShape(v, o, offset, instant);
    if HasPosition(v) {
      ApplyTraceAt(v, instant, o, offset, refresh, |p| + 1);
    }
    if HasFov(v) {
      ApplyTraceAt(v, instant, o, offset, refresh, |p| + 1 + |TargetPhase(v, o, offset, instant)|);
    }
  }

  /** Every write of `applyView` is committed, and its one read follows a settlement and a frame. */
  lemma ApplyCommitted(v: View, instant: bool, o: Orbit, offset: OffsetFn, refresh: Action, e0: Engine, resolve: Resolver)
    requires refresh.Refresh?
    requires o == Replay(e0, OrbitPhase(v, instant), resolve).orbit
    ensures
      var t := ApplyTrace(v, instant, o, offset, refresh);
      AllCommitted(t, instant) && ReadAfterSettleAndFrame(t) && ReadsAreLive(e0, t, resolve)
  {
    var orbitPhase := CommitActions(SetOrbit(OrbitText(v.orbit)), instant);
    var settled := OrbitPhase(v, instant);
    var read := settled + [ReadOrbit(o)];
    var targetPhase := TargetPhase(v, o, offset, instant);
    var fovPhase := FovPhase(v, instant);
    CommitBlock(SetOrbit(OrbitText(v.orbit)), instant);
    if HasPosition(v) {
      CommitBlock(SetTarget(TargetFor(PositionPoint(v), o, offset)), instant);
    }
    if HasFov(v) {
      CommitBlock(SetFov(v.fov.value), instant);
    }
    CommittedConcat(orbitPhase, [Frame], instant);
    CommittedConcat(settled, [ReadOrbit(o)], instant);
    CommittedConcat(targetPhase, fovPhase, instant);
    CommittedConcat(targetPhase + fovPhase, [refresh], instant);
    var rest := targetPhase + fovPhase + [refresh];
    CommittedConcat(read, rest, instant);
    assert ApplyTrace(v, instant, o, offset, refresh) == read + rest;
    OrbitPhaseShape(v, instant);
    assert read[..|settled|] == settled;
    assert ReadsAreLive(e0, read, resolve);
    assert NoReads(rest) by {
      TailShape(v, o, offset, instant);
      forall i | 0 <= i < |rest|
        ensures !rest[i].ReadOrbit?
      {
        if i < |rest| - 1 {
          assert rest[i] == TailPhases(v, o, offset, instant)[i];
          assert TailAction(rest[i], v, o, offset, instant);
        }
      }
    }
    ReadsConcat(read, rest, e0, resolve);
  }

  /** The trace `applyView` produces from the engine state `e0`. */
  function ViewTrace(v: View, instant: bool, e0: Engine, resolve: Resolver, offset: OffsetFn, f: NumberFormat): seq<Action> {
    var o := Replay(e0, OrbitPhase(v, instant), resolve).orbit;
    var body := OrbitPhase(v, instant) + [ReadOrbit(o)] + TailPhases(v, o, offset, instant);
    body + [Refresh(Readouts(Replay(e0, body, resolve), offset, f))]
  }

  /** The trace of `applyView` starts with the orbit write and ends with the refresh, and leaves the camera where the view puts it. */
  lemma ViewTraceEffect(v: View, instant: bool, e0: Engine, resolve: Resolver, offset: OffsetFn, f: NumberFormat)
    ensures
      var t := ViewTrace(v, instant, e0, resolve, offset, f);
      var e := Replay(e0, t, resolve);
      && |t| >= 5 && t[0] == SetOrbit(OrbitText(v.orbit))
      && t[|t| - 1] == Refresh(Readouts(e, offset, f))
      && e.orbitAttr == OrbitText(v.orbit) && e.orbit == resolve(OrbitText(v.orbit))
      && (HasPosition(v) ==> CameraPosition(e.orbit, e.target, offset) == PositionPoint(v))
      && (HasFov(v) ==> e.fov == v.fov.value)
  {
    ApplyEffect(v, instant, e0, resolve, offset);
    var o := Replay(e0, OrbitPhase(v, instant), resolve).orbit;
    var body := OrbitPhase(v, instant) + [ReadOrbit(o)] + TailPhases(v, o, offset, instant);
    var e := Replay(e0, body, resolve);
    var refresh := Refresh(Readouts(e, offset, f));
    var t := body + [refresh];
    assert t == ApplyTrace(v, instant, o, offset, refresh);
    ReplayConcat(e0, body, [refresh], resolve);
    ReplaySingle(e, refresh, resolve);
    OrbitPhaseShape(v, instant);
    ApplyTraceAt(v, instant, o, offset, refresh, 0);
    ApplyTraceAt(v, instant, o, offset, refresh, |t| - 1);
  }

  /**
    The ordering and commitment guarantees of an `applyView` trace `t` for
    view `v`: the trace opens with the orbit phase (the orbit write, a jump
    in instant mode, a settlement and a frame) followed by the read of the
    resolved view orbit, which is the only read; the orbit is written only
    there; every write is committed, with a jump exactly in instant mode; the
    read reports the live orbit; the one target write comes right after the
    read, carries the target derived from it, and occurs exactly when the
    view has a position; the one fov write comes right after the committed
    target write (or the read), carries the view's fov and occurs exactly
    when it has one; no other action occurs, so the trace is as long as its
    phases and the refresh; and a refresh occurs only last.
   */
  predicate ViewProtocol(v: View, instant: bool, e0: Engine, resolve: Resolver, offset: OffsetFn, t: seq<Action>) {
    && ViewOrder(v, instant, resolve(OrbitText(v.orbit)), offset, t)
    && AllCommitted(t, instant)
    && ReadAfterSettleAndFrame(t) && ReadsAreLive(e0, t, resolve)
  }

  /** The ordering part of `ViewProtocol`, for the orbit `o` read back. */
  predicate ViewOrder(v: View, instant: bool, o: Orbit, offset: OffsetFn, t: seq<Action>) {
    var r := |OrbitPhase(v, instant)|;
    && r < |t| && t[..r + 1] == OrbitPhase(v, instant) + [ReadOrbit(o)]
    && (forall i :: 0 <= i < |t| && t[i].ReadOrbit? ==> i == r)
    && (forall i :: 0 < i < |t| ==> !t[i].SetOrbit?)
    && (forall i :: 0 <= i < |t| && t[i] == Jump ==> instant)
    && (forall i, j :: 0 <= i < |t| && 0 <= j < |t| && t[i].SetTarget? && t[j].ReadOrbit? ==>
          j < i && HasPosition(v) && t[i].p == TargetFor(PositionPoint(v), t[j].o, offset))
    && ((exists i :: 0 <= i < |t| && t[i].SetTarget?) <==> HasPosition(v))
    && ((exists i :: 0 <= i < |t| && t[i].SetFov?) <==> HasFov(v))
    && (forall j :: 0 <= j < |t| && t[j].SetFov? ==> HasFov(v) && t[j].text == v.fov.value)
    && |t| == r + 2 + |TargetPhase(v, o, offset, instant)| + |FovPhase(v, instant)|
    && (forall i :: 0 <= i < |t| && t[i].SetTarget? ==> i == r + 1)
    && (forall j :: 0 <= j < |t| && t[j].SetFov? ==> j == r + 1 + |TargetPhase(v, o, offset, instant)|)
    && (forall i :: 0 <= i < |t| - 1 ==> !t[i].Refresh?)
  }

  /** The `applyView` trace for the orbit `o` read back keeps the order of its phases. */
  lemma ApplyTraceOrder(v: View, instant: bool, o: Orbit, offset: OffsetFn, refresh: Action)
    requires refresh.Refresh?
    ensures ViewOrder(v, instant, o, offset, ApplyTrace(v, instant, o, offset, refresh))
  {
    ApplyOrder(v, instant, o, offset, refresh);
    ApplyWrites(v, instant, o, offset, refresh);
    ApplyPhases(v, instant, o, offset, refresh);
  }

  /** The trace of `applyView` keeps its protocol. */
  lemma ViewTraceProtocol(v: View, instant: bool, e0: Engine, resolve: Resolver, offset: OffsetFn, f: NumberFormat)
    ensures ViewProtocol(v, instant, e0, resolve, offset, ViewTrace(v, instant, e0, resolve, offset, f))
  {
    ApplyEffect(v, instant, e0, resolve, offset);
    var o := Replay(e0, OrbitPhase(v, instant), resolve).orbit;
    var body := OrbitPhase(v, instant) + [ReadOrbit(o)] + TailPhases(v, o, offset, instant);
    var refresh := Refresh(Readouts(Replay(e0, body, resolve), offset, f));
    assert ViewTrace(v, instant, e0, resolve, offset, f) == ApplyTrace(v, instant, o, offset, refresh);
    ApplyTraceOrder(v, instant, o, offset, refresh);
    ApplyCommitted(v, instant, o, offset, refresh, e0, resolve);
  }

  /** The trace of the Apply Camera handler from the engine state `e0`. */
  function CameraTrace(p: Point3, instant: bool, e0: Engine, resolve: Resolver, offset: OffsetFn, f: NumberFormat): seq<Action> {
    var body := CameraBody(p, instant, Replay(e0, [Settle], resolve).orbit, offset);
    body + [Refresh(Readouts(Replay(e0, body, resolve), offset, f))]
  }

  /** The Apply Camera trace before the refresh, for the orbit `o` read back. */
  function CameraBody(p: Point3, instant: bool, o: Orbit, offset: OffsetFn): seq<Action> {
    [Settle, ReadOrbit(o)] + CommitActions(SetTarget(TargetFor(p, o, offset)), instant)
  }

  /** The Apply Camera trace settles, then reads the live orbit. */
  lemma CameraTraceStart(p: Point3, instant: bool, e0: Engine, resolve: Resolver, offset: OffsetFn, f: NumberFormat)
    ensures
      var t := CameraTrace(p, instant, e0, resolve, offset, f);
      && |t| >= 2 && t[0] == Settle
      && t[1] == ReadOrbit(if e0.orbitPending then resolve(e0.orbitAttr) else e0.orbit)
  {
    ReplaySingle(e0, Settle, resolve);
  }

  /** The Apply Camera trace ends with a refresh showing the engine it leaves. */
  lemma CameraTraceEnd(p: Point3, instant: bool, e0: Engine, resolve: Resolver, offset: OffsetFn, f: NumberFormat)
    ensures
      var t := CameraTrace(p, instant, e0, resolve, offset, f);
      |t| > 0 && t[|t| - 1] == Refresh(Readouts(Replay(e0, t, resolve), offset, f))
  {
    var body := CameraBody(p, instant, Replay(e0, [Settle], resolve).orbit, offset);
    ReplayRefresh(e0, body, Readouts(Replay(e0, body, resolve), offset, f), resolve);
  }

  /** A settlement followed by a read leaves the engine settled, with nothing pending. */
  lemma SettleThenRead(e0: Engine, o: Orbit, resolve: Resolver)
    ensures
      var e1 := Replay(e0, [Settle, ReadOrbit(o)], resolve);
      && e1 == Step(e0, Settle, resolve)
      && !e1.orbitPending
      && e1.orbit == (if e0.orbitPending then resolve(e0.orbitAttr) else e0.orbit)
  {
    ReplaySingle(e0, Settle, resolve);
    ReplaySingle(Step(e0, Settle, resolve), ReadOrbit(o), resolve);
    ReplayConcat(e0, [Settle], [ReadOrbit(o)], resolve);
    assert [Settle] + [ReadOrbit(o)] == [Settle, ReadOrbit(o)];
  }

  /** A committed target write moves the target and, with no orbit write pending, keeps the orbit. */
  lemma CommitTargetKeepsOrbit(e: Engine, target: Point3, instant: bool, resolve: Resolver)
    requires !e.orbitPending
    ensures
      var e2 := Replay(e, CommitActions(SetTarget(target), instant), resolve);
      e2.orbit == e.orbit && e2.target == target
  {
    ReplayCommit(e, SetTarget(target), instant, resolve);
  }

  /** The orbit the first settlement of the Apply Camera handler leaves live. */
  function SettledOrbit(e0: Engine, resolve: Resolver): Orbit {
    if e0.orbitPending then resolve(e0.orbitAttr) else e0.orbit
  }

  /** The engine after the Apply Camera trace: the settled orbit, and the target derived from it. */
  lemma CameraTraceEngine(p: Point3, instant: bool, e0: Engine, resolve: Resolver, offset: OffsetFn, f: NumberFormat)
    ensures
      var e := Replay(e0, CameraTrace(p, instant, e0, resolve, offset, f), resolve);
      e.orbit == SettledOrbit(e0, resolve) && e.target == TargetFor(p, SettledOrbit(e0, resolve), offset)
  {
    var o := Replay(e0, [Settle], resolve).orbit;
    var read := [Settle, ReadOrbit(o)];
    var target := TargetFor(p, o, offset);
    var commit := CommitActions(SetTarget(target), instant);
    var body := CameraBody(p, instant, o, offset);
    ReplaySingle(e0, Settle, resolve);
    SettleThenRead(e0, o, resolve);
    var e1 := Replay(e0, read, resolve);
    CommitTargetKeepsOrbit(e1, target, instant, resolve);
    ReplayConcat(e0, read, commit, resolve);
    assert body == read + commit;
    var e2 := Replay(e0, body, resolve);
    ReplayRefresh(e0, body, Readouts(e2, offset, f), resolve);
  }

  /** The Apply Camera trace keeps the orbit its first settlement leaves: a dragged orbit with no pending write stays. */
  lemma CameraTraceKeepsOrbit(p: Point3, instant: bool, e0: Engine, resolve: Resolver, offset: OffsetFn, f: NumberFormat)
    ensures
      var e := Replay(e0, CameraTrace(p, instant, e0, resolve, offset, f), resolve);
      e.orbit == (if e0.orbitPending then resolve(e0.orbitAttr) else e0.orbit)
  {
    CameraTraceEngine(p, instant, e0, resolve, offset, f);
  }

  /** The Apply Camera trace leaves the camera at `p`. */
  lemma CameraTraceEffect(p: Point3, instant: bool, e0: Engine, resolve: Resolver, offset: OffsetFn, f: NumberFormat)
    ensures
      var e := Replay(e0, CameraTrace(p, instant, e0, resolve, offset, f), resolve);
      CameraPosition(e.orbit, e.target, offset) == p
  {
    CameraTraceEngine(p, instant, e0, resolve, offset, f);
  }

  /**
    The one read of the Apply Camera trace reports the live orbit, and its
    one write, right after the read, is a committed write of the target
    derived from `p` and the orbit read, followed only by the refresh.
   */
  lemma CameraTraceProtocol(p: Point3, instant: bool, e0: Engine, resolve: Resolver, offset: OffsetFn, f: NumberFormat)
    ensures
      var t := CameraTrace(p, instant, e0, resolve, offset, f);
      && ReadsAreLive(e0, t, resolve)
      && |t| > 2 && t[1].ReadOrbit? && t[2] == SetTarget(TargetFor(p, t[1].o, offset))
      && t[2..|t| - 1] == CommitActions(t[2], instant)
      && (forall i :: 0 <= i < |t| && IsSet(t[i]) ==> i == 2 && t[i].SetTarget? && CommittedAt(t, i, instant))
  {
    ReplaySingle(e0, Settle, resolve);
    var o := Replay(e0, [Settle], resolve).orbit;
    var read := [Settle, ReadOrbit(o)];
    var body := CameraBody(p, instant, o, offset);
    var e := Replay(e0, body, resolve);
    var t := body + [Refresh(Readouts(e, offset, f))];
    assert t == CameraTrace(p, instant, e0, resolve, offset, f);
    assert t[..1] == [Settle];
  }
}

=== FILE: apply.dfy ===
/**
  The two operations of the panel that move the camera. Each drives the
  engine of `Applicator` from a given state and yields the trace of its
  interactions together with the engine state it leaves.
 */
module Apply {
  import opened Geometry
  import opened Orbits
  import opened Views
  import opened Applicator

  /** The outcome of an operation: what it did to the engine, in order, and where that left the engine. */
  datatype Run = Run(trace: seq<Action>, engine: Engine)

  /**
    `applyView`: set the orbit, let it settle and resolve for a frame, read
    the numeric orbit back, then derive and set the target from the desired
    position, set the field of view, and refresh the readouts.
   */
  function ApplyView(v: View, instant: bool, e0: Engine, resolve: Resolver, offset: OffsetFn, f: NumberFormat): (r: Run)
    ensures r.engine == Replay(e0, r.trace, resolve)
    ensures |r.trace| >= 5 && r.trace[0] == SetOrbit(OrbitText(v.orbit))
    ensures ViewProtocol(v, instant, e0, resolve, offset, r.trace)
    ensures r.trace[|r.trace| - 1] == Refresh(Readouts(r.engine, offset, f))
    ensures r.engine.orbitAttr == OrbitText(v.orbit) && r.engine.orbit == resolve(OrbitText(v.orbit))
    ensures HasPosition(v) ==> CameraPosition(r.engine.orbit, r.engine.target, offset) == PositionPoint(v)
    ensures HasFov(v) ==> r.engine.fov == v.fov.value
  {
    ViewTraceEffect(v, instant, e0, resolve, offset, f);
    ViewTraceProtocol(v, instant, e0, resolve, offset, f);
    var t := ViewTrace(v, instant, e0, resolve, offset, f);
    Run(t, Replay(e0, t, resolve))
  }

  /**
    The guarantees of `applyView` for a run `r` of view `v` from `e0`: the
    run's engine is the replay of its trace; the trace opens with the orbit
    write, keeps `ViewProtocol` and closes with the refresh of that engine;
    and the engine holds the view's resolved orbit, the camera at the view's
    position when it has one, and the view's fov when it has one.
   */
  predicate ViewApplied(v: View, instant: bool, e0: Engine, resolve: Resolver, offset: OffsetFn, f: NumberFormat, r: Run) {
    && r.engine == Replay(e0, r.trace, resolve)
    && |r.trace| >= 5 && r.trace[0] == SetOrbit(OrbitText(v.orbit))
    && ViewProtocol(v, instant, e0, resolve, offset, r.trace)
    && r.trace[|r.trace| - 1] == Refresh(Readouts(r.engine, offset, f))
    && r.engine.orbitAttr == OrbitText(v.orbit) && r.engine.orbit == resolve(OrbitText(v.orbit))
    && (HasPosition(v) ==> CameraPosition(r.engine.orbit, r.engine.target, offset) == PositionPoint(v))
    && (HasFov(v) ==> r.engine.fov == v.fov.value)
  }

  /** After `applyView` of a view with a fov, the refreshed panel shows that fov. */
  lemma ApplyViewShowsFov(v: View, instant: bool, e0: Engine, resolve: Resolver, offset: OffsetFn, f: NumberFormat)
    requires HasFov(v)
    ensures
      var r := ApplyView(v, instant, e0, resolve, offset, f);
      r.trace[|r.trace| - 1] == Refresh(Readouts(r.engine, offset, f)) && Readouts(r.engine, offset, f).fov == v.fov.value
  {
  }

  /**
    The Apply Camera handler: await settlement, read the numeric orbit, set
    the target that puts the camera at `p`, and refresh.
   */
  function ApplyCamera(p: Point3, instant: bool, e0: Engine, resolve: Resolver, offset: OffsetFn, f: NumberFormat): (r: Run)
    ensures r.engine == Replay(e0, r.trace, resolve)
    ensures |r.trace| >= 2 && r.trace[0] == Settle
    ensures r.trace[1] == ReadOrbit(if e0.orbitPending then resolve(e0.orbitAttr) else e0.orbit)
    ensures ReadsAreLive(e0, r.trace, resolve)
    ensures |r.trace| > 2 && r.trace[2] == SetTarget(TargetFor(p, r.trace[1].o, offset))
    ensures r.trace[2..|r.trace| - 1] == CommitActions(r.trace[2], instant)
    ensures forall i :: 0 <= i < |r.trace| && IsSet(r.trace[i]) ==> i == 2 && r.trace[i].SetTarget? && CommittedAt(r.trace, i, instant)
    ensures r.trace[|r.trace| - 1] == Refresh(Readouts(r.engine, offset, f))
    ensures r.engine.orbit == (if e0.orbitPending then resolve(e0.orbitAttr) else e0.orbit)
    ensures CameraPosition(r.engine.orbit, r.engine.target, offset) == p
  {
    CameraTraceStart(p, instant, e0, resolve, offset, f);
    CameraTraceEnd(p, instant, e0, resolve, offset, f);
    CameraTraceEffect(p, instant, e0, resolve, offset, f);
    CameraTraceKeepsOrbit(p, instant, e0, resolve, offset, f);
    CameraTraceProtocol(p, instant, e0, resolve, offset, f);
    var t := CameraTrace(p, instant, e0, resolve, offset, f);
    Run(t, Replay(e0, t, resolve))
  }
}

=== FILE: export.dfy ===
/**
  The views download: the loaded views and a snapshot of the current
  camera are merged by id into one list and written with the file's header
  fields. Views go into a `Map` keyed by id, so a repeated id keeps the slot
  of its first view and the contents of its last; the snapshot, under the id
  "current", then replaces a view with that id in place or is appended.
 */
module Export {
  import opened Results
  import opened Text
  import opened Geometry
  import opened Orbits
  import opened Views
  import opened Applicator
  import opened OrderedMaps

  const CurrentId: string := "current"

  /** The `orbit` member of a record: parsed tokens for a loaded view, text for the snapshot. */
  datatype OrbitField = Parsed(tokens: OrbitTokens) | Written(text: string)

  /** A value of the merge map: a loaded view or the snapshot. */
  datatype Record = Record(
    id: string,
    caption: string,
    position: Option<seq<real>>,
    orbit: OrbitField,
    fov: Option<string>)

  /** One entry of the downloaded `views` array. */
  datatype Entry = Entry(
    id: string,
    caption: string,
    position: Option<seq<real>>,
    orbit: string,
    fov: Option<string>)

  /** The downloaded document. */
  datatype Payload = Payload(schemaVersion: int, coordSpace: string, units: string, views: seq<Entry>)

  function RecordOf(v: View): Record {
    Record(v.id, v.caption, v.position, Parsed(v.orbit), v.fov)
  }

  /**
    The snapshot of the camera: its position (each coordinate passed through
    `round`, the six-decimal rounding), the orbit as text and the field of view.
   */
  function Snapshot(e: Engine, offset: OffsetFn, f: NumberFormat, round: real -> real): (r: Record)
    ensures r.id == CurrentId && r.caption == "Current"
    ensures r.orbit.Written? && (Clean(f) ==> SplitOrbit(r.orbit.text) == Ok(FormatTokens(f, e.orbit)))
    ensures r.fov.Some? && r.fov.value != ""
    ensures r.position.Some? && |r.position.value| == 3
    ensures (forall x :: round(x) == x) ==>
      Sub(Point3(r.position.value[0], r.position.value[1], r.position.value[2]), offset(e.orbit)) == e.target
  {
    var p := CameraPosition(e.orbit, e.target, offset);
    Record(CurrentId, "Current", Some([round(p.x), round(p.y), round(p.z)]), Written(OrbitToString(f, e.orbit)), Some(FovText(e)))
  }

  /** The entry written for a record: `label || id`, and the orbit as text. */
  function EntryOf(r: Record): (x: Entry)
    ensures x.id == r.id && x.position == r.position && x.fov == r.fov
    ensures r.caption != "" ==> x.caption == r.caption
    ensures r.caption == "" ==> x.caption == r.id
    ensures x.caption == "" ==> r.caption == "" && r.id == ""
    ensures r.orbit.Written? ==> x.orbit == r.orbit.text
    ensures r.orbit.Parsed? && TokensClean(r.orbit.tokens) ==>
      Words(x.orbit) == [r.orbit.tokens.th, r.orbit.tokens.ph, r.orbit.tokens.r]
    ensures r.orbit.Parsed? && TokensClean(r.orbit.tokens) ==> SplitOrbit(x.orbit) == Ok(r.orbit.tokens)
  {
    var orbit := match r.orbit
      case Written(s) => s
      case Parsed(t) =>
        assert TokensClean(t) ==> Words(OrbitText(t)) == [t.th, t.ph, t.r] && SplitOrbit(OrbitText(t)) == Ok(t) by {
          if TokensClean(t) {
            WordsOfTriple(t.th, t.ph, t.r);
            SplitOrbitRoundTrip(t);
          }
        }
        OrbitText(t);
    Entry(r.id, LabelOrId(Some(r.caption), r.id), r.position, orbit, r.fov)
  }

  /** The `[v.id, v]` pairs the map is built from. */
  function ViewPairs(views: seq<View>): (ps: seq<(string, Record)>)
    ensures |ps| == |views|
    ensures forall i :: 0 <= i < |views| ==> ps[i] == (views[i].id, RecordOf(views[i]))
  {
    seq(|views|, i requires 0 <= i < |views| => (views[i].id, RecordOf(views[i])))
  }

  /** The views' ids, in order. */
  function ViewIds(views: seq<View>): seq<string> {
    Keys(ViewPairs(views))
  }

  /** The entries' ids, in order. */
  function EntryIds(out: seq<Entry>): (ids: seq<string>)
    ensures |ids| == |out|
    ensures forall i :: 0 <= i < |out| ==> ids[i] == out[i].id
  {
    seq(|out|, i requires 0 <= i < |out| => out[i].id)
  }

  /** The map of loaded views by id, with the snapshot set last. */
  function MergeMap(views: seq<View>, current: Record): seq<(string, Record)> {
    Put(FromPairs(ViewPairs(views)), current.id, current)
  }

  /** `Array.from(byId.values()).map(...)`: one entry per map value, in map order. */
  function Merge(views: seq<View>, current: Record): (out: seq<Entry>)
    ensures |out| == |MergeMap(views, current)|
  {
    var m := MergeMap(views, current);
    seq(|m|, i requires 0 <= i < |m| => EntryOf(m[i].1))
  }

  /** The last view with a given id carries that id. */
  lemma {:induction false} LastViewHasId(views: seq<View>, k: string)
    ensures LastValue(ViewPairs(views), k).Some? ==> LastValue(ViewPairs(views), k).value.id == k
  {
    if views != [] {
      var init := views[..|views| - 1];
      assert ViewPairs(views)[..|views| - 1] == ViewPairs(init);
      LastViewHasId(init, k);
    }
  }

  /** Where a slot of the merge map comes from: the snapshot, or the last view with its id. */
  lemma MergeSlot(views: seq<View>, current: Record, i: int)
    requires 0 <= i < |MergeMap(views, current)|
    ensures
      var m := MergeMap(views, current);
      && Distinct(Keys(m))
      && (m[i].0 == current.id ==> m[i].1 == current)
      && (m[i].0 != current.id ==>
            LastValue(ViewPairs(views), m[i].0).Some? && m[i].1 == LastValue(ViewPairs(views), m[i].0).value)
      && m[i].1.id == m[i].0
  {
    var ps := ViewPairs(views);
    var m0 := FromPairs(ps);
    var m := MergeMap(views, current);
    PutDistinct(m0, current.id, current);
    GetAtSlot(m, i);
    PutGet(m0, current.id, current, m[i].0);
    FromPairsGet(ps, m[i].0);
    LastViewHasId(views, m[i].0);
  }

  /**
    The merge by id: ids are unique, the views' ids come in order of first
    occurrence with "current" in the slot of an existing view or appended,
    the one snapshot entry carries the snapshot, and every other entry
    carries the last view with its id.
   */
  lemma MergeById(views: seq<View>, current: Record)
    ensures
      var out := Merge(views, current);
      var ids := ViewIds(views);
      && Distinct(EntryIds(out))
      && EntryIds(out) == (if current.id in ids then Dedup(ids) else Dedup(ids) + [current.id])
      && (forall i :: 0 <= i < |out| && out[i].id == current.id ==> out[i] == EntryOf(current))
      && (forall i :: 0 <= i < |out| && out[i].id != current.id ==>
            LastValue(ViewPairs(views), out[i].id).Some?
            && out[i] == EntryOf(LastValue(ViewPairs(views), out[i].id).value))
  {
    var ps := ViewPairs(views);
    var m0 := FromPairs(ps);
    var m := MergeMap(views, current);
    var out := Merge(views, current);
    var ids := ViewIds(views);
    assert Keys(ps) == ids;
    FromPairsKeys(ps);
    forall i | 0 <= i < |out|
      ensures out[i].id == Keys(m)[i]
      ensures out[i].id == current.id ==> out[i] == EntryOf(current)
      ensures out[i].id != current.id ==>
        LastValue(ps, out[i].id).Some? && out[i] == EntryOf(LastValue(ps, out[i].id).value)
    {
      MergeSlot(views, current, i);
    }
    assert EntryIds(out) == Keys(m);
    if |m| > 0 {
      MergeSlot(views, current, 0);
    } else {
      PutDistinct(m0, current.id, current);
    }
  }

  /** The download handler's document: header fields and the merged views with the snapshot. */
  function Download(views: seq<View>, e: Engine, offset: OffsetFn, f: NumberFormat, round: real -> real): (p: Payload)
    ensures p.schemaVersion == 4 && p.coordSpace == "position+orbit" && p.units == "meters"
    ensures p.views == Merge(views, Snapshot(e, offset, f, round))
    ensures Distinct(EntryIds(p.views))
    ensures exists i :: 0 <= i < |p.views| && p.views[i].id == CurrentId
    ensures forall i :: 0 <= i < |p.views| && p.views[i].id == CurrentId ==>
      p.views[i] == EntryOf(Snapshot(e, offset, f, round))
  {
    var current := Snapshot(e, offset, f, round);
    var out := Merge(views, current);
    assert
      && Distinct(EntryIds(out))
      && (exists i :: 0 <= i < |out| && out[i].id == CurrentId)
      && (forall i :: 0 <= i < |out| && out[i].id == CurrentId ==> out[i] == EntryOf(current))
    by {
      MergeById(views, current);
      var k :| 0 <= k < |out| && EntryIds(out)[k] == current.id;
    }
    Payload(4, "position+orbit", "meters", out)
  }

  /** An entry read back as a view file entry. */
  function Reload(x: Entry): RawView {
    RawView(x.id, Some(x.caption), x.position, OrbitString(x.orbit),
      match x.fov
      case None => FovUndefined
      case Some(s) => FovString(s))
  }

  /** A loaded view survives a download and a reload unchanged. */
  lemma LoadedViewReloads(rv: RawView, f: NumberFormat)
    requires Clean(f)
    ensures NormalizeView(rv, f).Ok? ==>
      NormalizeView(Reload(EntryOf(RecordOf(NormalizeView(rv, f).value))), f) == NormalizeView(rv, f)
  {
    if NormalizeView(rv, f).Ok? {
      ParseOrbitTextRoundTrip(NormalizeView(rv, f).value.orbit, f);
    }
  }

  /** The snapshot reloads as a view with the formatted orbit of the live camera. */
  lemma SnapshotReloads(e: Engine, offset: OffsetFn, f: NumberFormat, round: real -> real)
    requires Clean(f)
    ensures
      var s := Snapshot(e, offset, f, round);
      NormalizeView(Reload(EntryOf(s)), f)
        == Ok(View(CurrentId, "Current", s.position, FormatTokens(f, e.orbit), Some(FovText(e))))
  {
    var s := Snapshot(e, offset, f, round);
    assert ParseOrbitFlexible(OrbitString(s.orbit.text), f) == Ok(FormatTokens(f, e.orbit));
  }
}

=== FILE: geometry.dfy ===
/**
  The coordinate engine: world-space points, numeric orbits, the camera
  position they determine, and the angle wrap used for display. The spherical
  offset `sphericalOffsetMeters` is trigonometry and is passed in as an
  uninterpreted function `offset`.
 */
module Geometry {
  import opened JsArith

  /** A point or offset in world space, in metres. */
  datatype Point3 = Point3(x: real, y: real, z: real)

  /** A resolved orbit: azimuth and polar angle in radians, radius in metres. */
  datatype Orbit = Orbit(theta: real, phi: real, radius: real)

  /** The camera's offset from its target for a given orbit. */
  type OffsetFn = Orbit -> Point3

  function Add(a: Point3, b: Point3): Point3 {
    Point3(a.x + b.x, a.y + b.y, a.z + b.z)
  }

  function Sub(a: Point3, b: Point3): Point3 {
    Point3(a.x - b.x, a.y - b.y, a.z - b.z)
  }

  /** Subtracting an offset undoes adding it. */
  lemma SubUndoesAdd(t: Point3, off: Point3)
    ensures Sub(Add(t, off), off) == t
  {
  }

  /** Adding an offset undoes subtracting it. */
  lemma AddUndoesSub(p: Point3, off: Point3)
    ensures Add(Sub(p, off), off) == p
  {
  }

  /**
    `currentCameraPosition`: the camera sits at the target displaced by the
    orbit's spherical offset, so the target is recovered by removing it.
   */
  function CameraPosition(o: Orbit, target: Point3, offset: OffsetFn): (p: Point3)
    ensures Sub(p, offset(o)) == target
  {
    Add(target, offset(o))
  }

  /** The target that puts the camera at `p` under orbit `o`. */
  function TargetFor(p: Point3, o: Orbit, offset: OffsetFn): (t: Point3)
    ensures CameraPosition(o, t, offset) == p
  {
    Sub(p, offset(o))
  }

  /** For a fixed orbit, `TargetFor` is the one and only target placing the camera at `p`. */
  lemma TargetForUnique(p: Point3, o: Orbit, t: Point3, offset: OffsetFn)
    ensures CameraPosition(o, t, offset) == p <==> t == TargetFor(p, o, offset)
  {
  }

  /** `wrapDeg`: `((d % 360) + 360) % 360` with JavaScript's truncating `%`. */
  function WrapDeg(d: real): (r: real)
    ensures 0.0 <= r < 360.0
    ensures IsMultipleOf360(r - d)
  {
    var r := Rem360(Rem360(d) + 360.0);
    assert IsMultipleOf360(d - Rem360(d));
    assert IsMultipleOf360(Rem360(d) + 360.0 - r);
    FloorOfInt((r - d) / 360.0, 1 - ((Rem360(d) + 360.0 - r) / 360.0).Floor - ((d - Rem360(d)) / 360.0).Floor);
    r
  }

  /** The wrapped angle is the floored remainder of `d` by 360. */
  lemma WrapDegIsFloorMod(d: real)
    ensures WrapDeg(d) == d - 360.0 * (d / 360.0).Floor as real
  {
    var r := WrapDeg(d);
    var k := ((r - d) / 360.0).Floor;
    FloorOfInt(d / 360.0, -k);
  }

  /** Wrapping an already wrapped angle changes nothing. */
  lemma WrapDegIdempotent(d: real)
    ensures WrapDeg(WrapDeg(d)) == WrapDeg(d)
  {
    var r := WrapDeg(d);
    WrapDegIsFloorMod(r);
    FloorOfInt(r / 360.0, 0);
  }

  /** Whole turns do not change the wrapped angle. */
  lemma WrapDegPeriodic(d: real, k: int)
    ensures WrapDeg(d + 360.0 * k as real) == WrapDeg(d)
  {
    WrapDegIsFloorMod(d);
    WrapDegIsFloorMod(d + 360.0 * k as real);
    var f := (d / 360.0).Floor;
    FloorOfInt((d + 360.0 * k as real) / 360.0, f + k);
  }
}

=== FILE: jsarith.dfy ===
/**
  JavaScript's remainder operator `%`. Unlike Dafny's Euclidean `%`, it
  truncates the quotient toward zero, so the remainder takes the sign of the
  dividend: `-1 % 360 == -1` in JavaScript.
 */
module JsArith {

  /** Truncation of a real toward zero. */
  function Trunc(x: real): (n: int)
    ensures x >= 0.0 ==> 0.0 <= x - n as real < 1.0
    ensures x < 0.0 ==> -1.0 < x - n as real <= 0.0
  {
    if x >= 0.0 then x.Floor else -((-x).Floor)
  }

  /** `x` is a whole number of turns of 360. */
  predicate IsMultipleOf360(x: real) {
    x == 360.0 * (x / 360.0).Floor as real
  }

  lemma FloorOfInt(x: real, n: int)
    requires n as real <= x < n as real + 1.0
    ensures x.Floor == n
  {
  }

  /** `a % 360` on JavaScript numbers. */
  function Rem360(a: real): (r: real)
    ensures -360.0 < r < 360.0
    ensures a >= 0.0 ==> r >= 0.0
    ensures a < 0.0 ==> r <= 0.0
    ensures IsMultipleOf360(a - r)
  {
    var q := Trunc(a / 360.0);
    FloorOfInt((a - (a - 360.0 * q as real)) / 360.0, q);
    a - 360.0 * q as real
  }

  /** Dafny's `%` on a non-negative dividend within the first two turns of `n`. */
  lemma ModSmall(a: int, n: int)
    requires 0 < n && 0 <= a < 2 * n
    ensures a < n ==> a % n == a
    ensures n <= a ==> a % n == a - n
  {
    var q := a / n;
    assert a == q * n + a % n;
    assert 0 <= a % n < n;
    if q == 0 {
      assert q * n == 0;
    } else if q == 1 {
      assert q * n == n;
    }
  }

  /** A whole multiple of `n` leaves no remainder. */
  lemma ModOfMultiple(q: int, n: int)
    requires n > 0
    ensures (q * n) % n == 0
  {
    var m := q * n;
    var d := q - m / n;
    assert m == (m / n) * n + m % n;
    assert d * n == q * n - (m / n) * n;
    assert d * n == m % n;
    MulBounds(d, n);
  }

  lemma MulBounds(d: int, n: int)
    requires n > 0
    ensures d >= 1 ==> d * n >= n
    ensures d <= -1 ==> d * n <= -n
  {
    if d >= 1 {
      assert d * n == (d - 1) * n + n;
    } else if d <= -1 {
      assert d * n == (d + 1) * n - n;
    }
  }

  /** `a % n` on JavaScript integers, for a positive divisor. */
  function Rem(a: int, n: int): (r: int)
    requires n > 0
    ensures -n < r < n
    ensures a >= 0 ==> r >= 0
    ensures a <= 0 ==> r <= 0
    ensures (a - r) % n == 0
    ensures -n < a < n ==> r == a
    ensures n <= a < 2 * n ==> r == a - n
  {
    if a >= 0 then
      assert a < 2 * n ==> a % n == (if a < n then a else a - n) by {
        if a < 2 * n {
          ModSmall(a, n);
        }
      }
      assert a - a % n == (a / n) * n;
      ModOfMultiple(a / n, n);
      a % n
    else
      var b := -a;
      assert a + b % n == (-(b / n)) * n by {
        assert b == (b / n) * n + b % n;
      }
      ModOfMultiple(-(b / n), n);
      assert -a < n ==> (-a) % n == -a by {
        if -a < n {
          ModSmall(-a, n);
        }
      }
      -((-a) % n)
  }
}

=== FILE: navigation.dfy ===
/**
  Choosing a view: the Go button looks the selected id up in the loaded
  views and applies the first match, and the left and right arrow keys move
  the selection cyclically through the collection before pressing Go. The
  selection is the select element's value, an id; after a load it is the
  first view's id.
 */
module Navigation {
  import opened Results
  import opened JsArith
  import opened Geometry
  import opened Orbits
  import opened Views
  import opened Applicator
  import opened Apply

  /** `views.findIndex(v => v.id === id)`: the first index holding `id`, or -1. */
  function FindIndex(views: seq<View>, id: string): (r: int)
    ensures -1 <= r < |views|
    ensures r == -1 <==> forall j :: 0 <= j < |views| ==> views[j].id != id
    ensures r >= 0 ==> views[r].id == id && forall j :: 0 <= j < r ==> views[j].id != id
  {
    if views == [] then -1
    else if views[0].id == id then 0
    else
      var k := FindIndex(views[1..], id);
      if k == -1 then -1 else k + 1
  }

  /** `views.find(x => x.id === id)`: the first view holding `id`. */
  function Find(views: seq<View>, id: string): (r: Option<View>)
    ensures r.None? <==> forall j :: 0 <= j < |views| ==> views[j].id != id
    ensures r.Some? ==>
      exists k :: 0 <= k < |views| && views[k] == r.value && views[k].id == id && (forall j :: 0 <= j < k ==> views[j].id != id)
  {
    var k := FindIndex(views, id);
    if k == -1 then None else Some(views[k])
  }

  /**
    The Go button: a selection that names no view does nothing; otherwise
    the first view with that id is applied.
   */
  function Go(views: seq<View>, selected: string, instant: bool, e0: Engine, resolve: Resolver, offset: OffsetFn, f: NumberFormat): (r: Run)
    ensures r.engine == Replay(e0, r.trace, resolve)
    ensures (forall j :: 0 <= j < |views| ==> views[j].id != selected) ==> r.trace == [] && r.engine == e0
    ensures (exists j :: 0 <= j < |views| && views[j].id == selected) ==>
      ViewApplied(views[FindIndex(views, selected)], instant, e0, resolve, offset, f, r)
  {
    match Find(views, selected)
    case None => Run([], e0)
    case Some(v) => ApplyView(v, instant, e0, resolve, offset, f)
  }

  /**
    The index an arrow key selects, from the index `idx` of the current
    selection (-1 when it names no view): `(idx + 1) % n` to the right and
    `(idx - 1 + n) % n` to the left, with JavaScript's remainder.
   */
  function NextIndex(idx: int, n: int, right: bool): (r: int)
    requires n >= 1 && -1 <= idx < n
    ensures 0 <= r < n
    ensures right ==> r == (if idx == n - 1 then 0 else idx + 1)
    ensures !right && idx >= 1 ==> r == idx - 1
    ensures !right && idx == 0 ==> r == n - 1
    ensures !right && idx == -1 ==> r == (if n >= 2 then n - 2 else 0)
  {
    if right then Rem(idx + 1, n) else Rem(idx - 1 + n, n)
  }

  /** One arrow key to the left undoes one to the right, and the other way round. */
  lemma LeftUndoesRight(idx: int, n: int)
    requires 0 <= idx < n
    ensures NextIndex(NextIndex(idx, n, true), n, false) == idx
    ensures NextIndex(NextIndex(idx, n, false), n, true) == idx
  {
  }

  /** The index after `k` presses of the same arrow key. */
  function Presses(idx: int, n: int, right: bool, k: nat): (r: int)
    requires n >= 1 && -1 <= idx < n
    ensures k > 0 ==> 0 <= r < n
    ensures k == 0 ==> r == idx
    decreases k
  {
    if k == 0 then idx else Presses(NextIndex(idx, n, right), n, right, k - 1)
  }

  /** Pressing `a` times and then `b` times is pressing `a + b` times. */
  lemma {:induction false} PressesAdd(idx: int, n: int, right: bool, a: nat, b: nat)
    requires n >= 1 && -1 <= idx < n
    ensures Presses(idx, n, right, a + b) == Presses(Presses(idx, n, right, a), n, right, b)
    decreases a
  {
    if a > 0 {
      PressesAdd(NextIndex(idx, n, right), n, right, a - 1, b);
    }
  }

  /** Moving right without reaching the end advances the index by the number of presses. */
  lemma {:induction false} PressesRightAdvance(idx: int, n: int, k: nat)
    requires n >= 1 && -1 <= idx && idx + k < n
    ensures Presses(idx, n, true, k) == idx + k
    decreases k
  {
    if k > 0 {
      PressesRightAdvance(idx + 1, n, k - 1);
    }
  }

  /** Moving left without passing the start retreats the index by the number of presses. */
  lemma {:induction false} PressesLeftRetreat(idx: int, n: int, k: nat)
    requires n >= 1 && 0 <= idx - k && idx < n
    ensures Presses(idx, n, false, k) == idx - k
    decreases k
  {
    if k > 0 {
      PressesLeftRetreat(idx - 1, n, k - 1);
    }
  }

  /** `n` presses of the same arrow key come back to the starting index. */
  lemma FullCycle(idx: int, n: int, right: bool)
    requires 0 <= idx < n
    ensures Presses(idx, n, right, n) == idx
  {
    if right {
      PressesRightAdvance(idx, n, n - 1 - idx);
      PressesAdd(idx, n, true, n - 1 - idx, 1);
      assert Presses(n - 1, n, true, 1) == 0;
      PressesAdd(idx, n, true, n - idx, idx);
      PressesRightAdvance(0, n, idx);
    } else {
      PressesLeftRetreat(idx, n, idx);
      PressesAdd(idx, n, false, idx, 1);
      assert Presses(0, n, false, 1) == n - 1;
      PressesAdd(idx, n, false, idx + 1, n - 1 - idx);
      PressesLeftRetreat(n - 1, n, n - 1 - idx);
    }
  }

  /** A key of the keydown handler. */
  datatype Key = ArrowLeft | ArrowRight | OtherKey

  /** The selection after a key press, and what pressing Go did. */
  datatype Pressed = Pressed(selected: string, run: Run)

  /** The id an arrow key selects in a non-empty collection. */
  function SelectNext(views: seq<View>, selected: string, right: bool): (r: string)
    requires |views| > 0
    ensures exists j :: 0 <= j < |views| && views[j].id == r
  {
    views[NextIndex(FindIndex(views, selected), |views|, right)].id
  }

  /**
    The keydown handler: with no views nothing happens; an arrow key moves
    the selection and presses Go; any other key leaves the selection alone
    (the copy shortcut is not part of this model).
   */
  function KeyDown(views: seq<View>, selected: string, key: Key, instant: bool, e0: Engine, resolve: Resolver, offset: OffsetFn, f: NumberFormat): (r: Pressed)
    ensures r.run.engine == Replay(e0, r.run.trace, resolve)
    ensures |views| == 0 || key.OtherKey? ==> r.selected == selected && r.run.trace == [] && r.run.engine == e0
    ensures |views| > 0 && !key.OtherKey? ==>
      && r.selected == views[NextIndex(FindIndex(views, selected), |views|, key.ArrowRight?)].id
      && ViewApplied(views[FindIndex(views, r.selected)], instant, e0, resolve, offset, f, r.run)
  {
    if |views| == 0 || key.OtherKey? then Pressed(selected, Run([], e0))
    else
      var sel := SelectNext(views, selected, key.ArrowRight?);
      Pressed(sel, Go(views, sel, instant, e0, resolve, offset, f))
  }

  /** No two views share an id. */
  predicate UniqueIds(views: seq<View>) {
    forall i, j :: 0 <= i < j < |views| ==> views[i].id != views[j].id
  }

  /** With unique ids, looking up a view's id finds that very view. */
  lemma FindIndexOfUnique(views: seq<View>, k: int)
    requires UniqueIds(views) && 0 <= k < |views|
    ensures FindIndex(views, views[k].id) == k
  {
  }

  /** With unique ids, an arrow key moves the selection from the view at `k` to the view at the next index. */
  lemma SelectNextUnique(views: seq<View>, k: int, right: bool)
    requires UniqueIds(views) && 0 <= k < |views|
    ensures SelectNext(views, views[k].id, right) == views[NextIndex(k, |views|, right)].id
  {
    FindIndexOfUnique(views, k);
  }

  /** The selection after `k` presses of the same arrow key. */
  function SelectPresses(views: seq<View>, selected: string, right: bool, k: nat): string
    requires |views| > 0
    decreases k
  {
    if k == 0 then selected else SelectPresses(views, SelectNext(views, selected, right), right, k - 1)
  }

  /** With unique ids, the selection follows the index presses on the view at `k`. */
  lemma {:induction false} SelectPressesFollowIndex(views: seq<View>, k: int, right: bool, m: nat)
    requires UniqueIds(views) && 0 <= k < |views|
    ensures SelectPresses(views, views[k].id, right, m) == views[Presses(k, |views|, right, m)].id
    decreases m
  {
    if m > 0 {
      var next := NextIndex(k, |views|, right);
      SelectNextUnique(views, k, right);
      SelectPressesFollowIndex(views, next, right, m - 1);
    }
  }

  /** With unique ids, as many presses of one arrow key as there are views return to the same view. */
  lemma CycleReturns(views: seq<View>, k: int, right: bool)
    requires UniqueIds(views) && 0 <= k < |views|
    ensures SelectPresses(views, views[k].id, right, |views|) == views[k].id
  {
    SelectPressesFollowIndex(views, k, right, |views|);
    FullCycle(k, |views|, right);
  }

  /**
    With a repeated id, cycling never reaches the later copy: in views
    `x, y, z` where `z` repeats `x`'s id, moving right from `x` selects `y`
    and then `x`'s id again, and Go applies `x`, never `z`.
   */
  lemma RepeatedIdIsSkipped(x: View, y: View, z: View)
    requires x.id != y.id && z.id == x.id
    ensures SelectNext([x, y, z], x.id, true) == y.id
    ensures SelectNext([x, y, z], y.id, true) == x.id
    ensures Find([x, y, z], x.id) == Some(x)
  {
    var views := [x, y, z];
    assert FindIndex(views, x.id) == 0;
    assert FindIndex(views, y.id) == 1;
  }

  /** The selection after a load: the first view's id, or the previous value when nothing loaded. */
  function InitialSelection(views: seq<View>, before: string): (r: string)
    ensures |views| > 0 ==> FindIndex(views, r) == 0
    ensures |views| == 0 ==> r == before
  {
    if |views| > 0 then views[0].id else before
  }
}

=== FILE: orbits.dfy ===
/**
  Orbit text: the token triple a view stores, the four input shapes
  `parseOrbitFlexible` accepts, and the canonical string `orbitToString`
  writes. Number-to-text conversion (`toFixed`, template rendering) and the
  radian-to-degree factor are floating point and are passed in uninterpreted
  as a `NumberFormat`.
 */
module Orbits {
  import opened Results
  import opened Text
  import opened Geometry

  /** An orbit as three textual tokens (azimuth, polar angle, radius), kept verbatim until applied. */
  datatype OrbitTokens = OrbitTokens(th: string, ph: string, r: string)

  /** The shapes of orbit input, distinguished in the order the parser tests them. */
  datatype OrbitInput =
    | OrbitString(text: string)
      /** Array elements as `join` renders them (`null` and `undefined` as ""). */
    | OrbitArray(items: seq<string>)
      /** A non-null object: the keys it has, with their numeric values. */
    | OrbitObject(fields: map<string, real>)
      /** `null`, `undefined`, a number or a boolean. */
    | OrbitOther

  datatype OrbitError =
      /** splitOrbit's "orbit must be 'theta phi radius'". */
    | NotThreeTokens
    | InvalidOrbitFormat

  /** The host's number formatting. */
  datatype NumberFormat = NumberFormat(
    show: real -> string,             // template rendering `${n}`
    toFixed: (real, nat) -> string,   // `n.toFixed(digits)`
    rad2deg: real -> real)            // multiplication by 180 / Math.PI

  /** Every rendered number is a single token, as JavaScript's renderings of numbers are. */
  ghost predicate Clean(f: NumberFormat) {
    && (forall x :: IsToken(f.show(x)))
    && (forall x, d :: IsToken(f.toFixed(x, d)))
  }

  lemma CleanShow(f: NumberFormat, x: real)
    requires Clean(f)
    ensures IsToken(f.show(x))
  {
  }

  lemma CleanFixed(f: NumberFormat, x: real, d: nat)
    requires Clean(f)
    ensures IsToken(f.toFixed(x, d))
  {
  }

  predicate TokensClean(t: OrbitTokens) {
    IsToken(t.th) && IsToken(t.ph) && IsToken(t.r)
  }

  /** The orbit attribute text `${th} ${ph} ${r}`, as applied and as exported. */
  function OrbitText(t: OrbitTokens): string {
    t.th + " " + t.ph + " " + t.r
  }

  /** The first three of a list of words. */
  function FirstThree(ws: seq<string>): OrbitTokens
    requires |ws| >= 3
  {
    OrbitTokens(ws[0], ws[1], ws[2])
  }

  /** Array destructuring: the element at `i`, or `undefined` past the end. */
  function At(parts: seq<string>, i: nat): Option<string> {
    if i < |parts| then Some(parts[i]) else None
  }

  /** JavaScript truthiness of a string that may be `undefined`. */
  predicate Truthy(o: Option<string>) {
    o.Some? && o.value != ""
  }

  /**
    `splitOrbit`: trims, splits on runs of white space and keeps the first
    three pieces, throwing when any of them is missing or empty.
   */
  function SplitOrbit(s: string): (res: Result<OrbitTokens, OrbitError>)
    ensures res.Ok? <==> |Words(s)| >= 3
    ensures res.Ok? ==> res.value == FirstThree(Words(s))
    ensures res.Err? ==> res.error == NotThreeTokens
  {
    SplitTrimmed(s);
    WordsAreTokens(s);
    var parts := SplitWs(Trim(s));
    var th := At(parts, 0);
    var ph := At(parts, 1);
    var r := At(parts, 2);
    if !Truthy(th) || !Truthy(ph) || !Truthy(r) then Err(NotThreeTokens)
    else Ok(OrbitTokens(th.value, ph.value, r.value))
  }

  /** The degree form `{thetaDeg, phiDeg, radiusM}` is present. */
  predicate HasDegreeKeys(m: map<string, real>) {
    "thetaDeg" in m && "phiDeg" in m && "radiusM" in m
  }

  /** The radian form `{theta, phi, radius}` is present. */
  predicate HasRadianKeys(m: map<string, real>) {
    "theta" in m && "phi" in m && "radius" in m
  }

  /** Appending a suffix without white space to a token keeps it a token. */
  lemma TokenSuffix(a: string, b: string)
    requires IsToken(a) && NoSpace(b)
    ensures IsToken(a + b)
  {
    assert forall i :: 0 <= i < |a + b| ==> (a + b)[i] == if i < |a| then a[i] else b[i - |a|];
  }

  /**
    `parseOrbitFlexible`: strings and arrays go through the splitter, the two
    object forms are rendered into degree and metre tokens (the degree form
    first), and every other shape is rejected.
   */
  function ParseOrbitFlexible(input: OrbitInput, f: NumberFormat): (res: Result<OrbitTokens, OrbitError>)
    ensures input.OrbitString? ==>
      && (res.Ok? <==> |Words(input.text)| >= 3)
      && (res.Ok? ==> res.value == FirstThree(Words(input.text)))
    ensures input.OrbitArray? ==>
      && (res.Ok? <==> |WordsOfAll(input.items)| >= 3)
      && (res.Ok? ==> res.value == FirstThree(WordsOfAll(input.items)))
    ensures input.OrbitObject? && HasDegreeKeys(input.fields) ==>
      var m := input.fields;
      res == Ok(OrbitTokens(f.show(m["thetaDeg"]) + "deg", f.show(m["phiDeg"]) + "deg", f.show(m["radiusM"]) + "m"))
    ensures input.OrbitObject? && !HasDegreeKeys(input.fields) && HasRadianKeys(input.fields) ==>
      var m := input.fields;
      res == Ok(OrbitTokens(
        f.toFixed(f.rad2deg(m["theta"]), 6) + "deg",
        f.toFixed(f.rad2deg(m["phi"]), 6) + "deg",
        f.toFixed(m["radius"], 6) + "m"))
    ensures res.Err? <==>
      || (input.OrbitString? && |Words(input.text)| < 3)
      || (input.OrbitArray? && |WordsOfAll(input.items)| < 3)
      || (input.OrbitObject? && !HasDegreeKeys(input.fields) && !HasRadianKeys(input.fields))
      || input.OrbitOther?
    ensures res.Err? ==> (res.error == NotThreeTokens <==> input.OrbitString? || input.OrbitArray?)
    ensures res.Ok? && Clean(f) ==> TokensClean(res.value)
  {
    match input
    case OrbitString(s) =>
      WordsAreTokens(s);
      SplitOrbit(s)
    case OrbitArray(items) =>
      WordsOfJoin(items);
      WordsAreTokens(Join(items));
      SplitOrbit(Join(items))
    case OrbitObject(m) =>
      if HasDegreeKeys(m) then
        var t := OrbitTokens(f.show(m["thetaDeg"]) + "deg", f.show(m["phiDeg"]) + "deg", f.show(m["radiusM"]) + "m");
        assert Clean(f) ==> TokensClean(t) by {
          if Clean(f) {
            CleanShow(f, m["thetaDeg"]);
            TokenSuffix(f.show(m["thetaDeg"]), "deg");
            CleanShow(f, m["phiDeg"]);
            TokenSuffix(f.show(m["phiDeg"]), "deg");
            CleanShow(f, m["radiusM"]);
            TokenSuffix(f.show(m["radiusM"]), "m");
          }
        }
        Ok(t)
      else if HasRadianKeys(m) then
        var t := OrbitTokens(
          f.toFixed(f.rad2deg(m["theta"]), 6) + "deg",
          f.toFixed(f.rad2deg(m["phi"]), 6) + "deg",
          f.toFixed(m["radius"], 6) + "m");
        assert Clean(f) ==> TokensClean(t) by {
          if Clean(f) {
            CleanFixed(f, f.rad2deg(m["theta"]), 6);
            TokenSuffix(f.toFixed(f.rad2deg(m["theta"]), 6), "deg");
            CleanFixed(f, f.rad2deg(m["phi"]), 6);
            TokenSuffix(f.toFixed(f.rad2deg(m["phi"]), 6), "deg");
            CleanFixed(f, m["radius"], 6);
            TokenSuffix(f.toFixed(m["radius"], 6), "m");
          }
        }
        Ok(t)
      else Err(InvalidOrbitFormat)
    case OrbitOther => Err(InvalidOrbitFormat)
  }

  /** `fmtDeg`: the angle wrapped into [0, 360) with three decimals and a `deg` suffix. */
  function FmtDeg(f: NumberFormat, n: real): string {
    f.toFixed(WrapDeg(n), 3) + "deg"
  }

  /** `fmtM`: a length with six decimals and an `m` suffix. */
  function FmtM(f: NumberFormat, n: real): string {
    f.toFixed(n, 6) + "m"
  }

  /** The tokens `orbitToString` renders a numeric orbit into. */
  function FormatTokens(f: NumberFormat, o: Orbit): OrbitTokens {
    OrbitTokens(FmtDeg(f, f.rad2deg(o.theta)), FmtDeg(f, f.rad2deg(o.phi)), FmtM(f, o.radius))
  }

  /** Under a clean formatter the rendered tokens are tokens. */
  lemma FormatTokensClean(f: NumberFormat, o: Orbit)
    requires Clean(f)
    ensures TokensClean(FormatTokens(f, o))
  {
    CleanFixed(f, WrapDeg(f.rad2deg(o.theta)), 3);
    CleanFixed(f, WrapDeg(f.rad2deg(o.phi)), 3);
    CleanFixed(f, o.radius, 6);
    TokenSuffix(f.toFixed(WrapDeg(f.rad2deg(o.theta)), 3), "deg");
    TokenSuffix(f.toFixed(WrapDeg(f.rad2deg(o.phi)), 3), "deg");
    TokenSuffix(f.toFixed(o.radius, 6), "m");
  }

  /**
    `orbitToString`: the canonical text of a numeric orbit. Its words are
    exactly the three rendered tokens, so reading it back with the splitter
    yields them.
   */
  function OrbitToString(f: NumberFormat, o: Orbit): (s: string)
    ensures Clean(f) ==> Words(s) == [FormatTokens(f, o).th, FormatTokens(f, o).ph, FormatTokens(f, o).r]
    ensures Clean(f) ==> SplitOrbit(s) == Ok(FormatTokens(f, o))
  {
    var t := FormatTokens(f, o);
    assert Clean(f) ==> Words(OrbitText(t)) == [t.th, t.ph, t.r] && SplitOrbit(OrbitText(t)) == Ok(t) by {
      if Clean(f) {
        FormatTokensClean(f, o);
        WordsOfTriple(t.th, t.ph, t.r);
        SplitOrbitRoundTrip(t);
      }
    }
    OrbitText(t)
  }

  /** Splitting the text of three tokens gives the tokens back. */
  lemma SplitOrbitRoundTrip(t: OrbitTokens)
    requires TokensClean(t)
    ensures SplitOrbit(OrbitText(t)) == Ok(t)
  {
    WordsOfTriple(t.th, t.ph, t.r);
  }

  /** Re-reading an orbit's text through the flexible parser gives the tokens back. */
  lemma ParseOrbitTextRoundTrip(t: OrbitTokens, f: NumberFormat)
    requires TokensClean(t)
    ensures ParseOrbitFlexible(OrbitString(OrbitText(t)), f) == Ok(t)
  {
    WordsOfTriple(t.th, t.ph, t.r);
  }

  /** Words beyond the third are ignored. */
  lemma SplitOrbitIgnoresExtras(t: OrbitTokens, rest: string)
    requires TokensClean(t)
    ensures SplitOrbit(OrbitText(t) + " " + rest) == Ok(t)
  {
    WordsOfTriple(t.th, t.ph, t.r);
    WordsConcatSpace(OrbitText(t), ' ', rest);
  }

  /** An array of at least three tokens parses to its first three elements. */
  lemma ParseArrayOfTokens(items: seq<string>, f: NumberFormat)
    requires |items| >= 3
    requires forall i :: 0 <= i < |items| ==> IsToken(items[i])
    ensures ParseOrbitFlexible(OrbitArray(items), f) == Ok(FirstThree(items))
  {
    WordsOfAllTokens(items);
  }

  /** An array of fewer than three tokens is rejected by the splitter. */
  lemma ParseShortArray(items: seq<string>, f: NumberFormat)
    requires |items| < 3
    requires forall i :: 0 <= i < |items| ==> IsToken(items[i])
    ensures ParseOrbitFlexible(OrbitArray(items), f) == Err(NotThreeTokens)
  {
    WordsOfAllTokens(items);
  }

  /** When an object carries both forms, the degree form wins: the radian members are ignored. */
  lemma DegreeFormFirst(m: map<string, real>, f: NumberFormat)
    requires HasDegreeKeys(m) && HasRadianKeys(m)
    ensures ParseOrbitFlexible(OrbitObject(m), f) == ParseOrbitFlexible(OrbitObject(m - {"theta", "phi", "radius"}), f)
  {
    var d := m - {"theta", "phi", "radius"};
    assert HasDegreeKeys(d);
    assert d["thetaDeg"] == m["thetaDeg"] && d["phiDeg"] == m["phiDeg"] && d["radiusM"] == m["radiusM"];
  }

  /**
    The string, array and degree-object forms of one orbit agree: the object
    `{thetaDeg: x, phiDeg: y, radiusM: z}`, the string of its tokens and the
    array of its tokens all parse to the same triple.
   */
  lemma ShapesAgree(f: NumberFormat, x: real, y: real, z: real)
    requires Clean(f)
    ensures
      var t := OrbitTokens(f.show(x) + "deg", f.show(y) + "deg", f.show(z) + "m");
      && ParseOrbitFlexible(OrbitObject(map["thetaDeg" := x, "phiDeg" := y, "radiusM" := z]), f) == Ok(t)
      && ParseOrbitFlexible(OrbitString(OrbitText(t)), f) == Ok(t)
      && ParseOrbitFlexible(OrbitArray([t.th, t.ph, t.r]), f) == Ok(t)
  {
    var m := map["thetaDeg" := x, "phiDeg" := y, "radiusM" := z];
    assert HasDegreeKeys(m);
    var t := ParseOrbitFlexible(OrbitObject(m), f).value;
    ParseOrbitTextRoundTrip(t, f);
    ParseArrayOfTokens([t.th, t.ph, t.r], f);
  }

  /** Two tokens, an empty object and a non-object are rejected. */
  lemma ParserRejects(a: string, b: string, f: NumberFormat)
    requires IsToken(a) && IsToken(b)
    ensures ParseOrbitFlexible(OrbitString(a + " " + b), f) == Err(NotThreeTokens)
    ensures ParseOrbitFlexible(OrbitObject(map[]), f) == Err(InvalidOrbitFormat)
    ensures ParseOrbitFlexible(OrbitOther, f) == Err(InvalidOrbitFormat)
  {
    WordsConcatSpace(a, ' ', b);
    WordsOfToken(a);
    WordsOfToken(b);
  }
}

=== FILE: orderedmaps.dfy ===
/**
  A JavaScript `Map` as the sequence of its entries in insertion order.
  `set` on a key already present replaces the value in that key's slot;
  on a new key it appends. Building a map from a list of pairs sets them
  one after another, so each key keeps the slot of its first occurrence and
  the value of its last.
 */
module OrderedMaps {
  import opened Results

  /** The keys of the entries, in order. */
  function Keys<K, V>(m: seq<(K, V)>): (ks: seq<K>)
    ensures |ks| == |m|
    ensures forall i :: 0 <= i < |m| ==> ks[i] == m[i].0
  {
    seq(|m|, i requires 0 <= i < |m| => m[i].0)
  }

  /** No key occurs twice. */
  predicate Distinct<K(==,!new)>(ks: seq<K>) {
    forall i, j :: 0 <= i < j < |ks| ==> ks[i] != ks[j]
  }

  /** `m.get(k)`. */
  function Get<K(==,!new), V>(m: seq<(K, V)>, k: K): (r: Option<V>)
    ensures r.Some? <==> k in Keys(m)
    ensures r.Some? ==> (k, r.value) in m
  {
    if m == [] then None
    else if m[0].0 == k then Some(m[0].1)
    else Get(m[1..], k)
  }

  /** In a map with distinct keys, the value held in a slot is the one `get` returns for its key. */
  lemma {:induction false} GetAtSlot<K(!new), V>(m: seq<(K, V)>, i: int)
    requires Distinct(Keys(m)) && 0 <= i < |m|
    ensures Get(m, m[i].0) == Some(m[i].1)
  {
    if i > 0 {
      assert Keys(m)[0] != Keys(m)[i];
      assert Distinct(Keys(m[1..])) by {
        forall a, b | 0 <= a < b < |m| - 1
          ensures Keys(m[1..])[a] != Keys(m[1..])[b]
        {
          assert Keys(m)[a + 1] != Keys(m)[b + 1];
        }
      }
      GetAtSlot(m[1..], i - 1);
    }
  }

  /** `m.set(k, v)`: a present key keeps its slot, a new one is appended. */
  function Put<K(==,!new), V>(m: seq<(K, V)>, k: K, v: V): (r: seq<(K, V)>)
    ensures k in Keys(m) ==> Keys(r) == Keys(m)
    ensures k !in Keys(m) ==> r == m + [(k, v)]
  {
    if m == [] then [(k, v)]
    else if m[0].0 == k then [(k, v)] + m[1..]
    else
      var rest := Put(m[1..], k, v);
      assert Keys(m) == [m[0].0] + Keys(m[1..]);
      assert Keys([m[0]] + rest) == [m[0].0] + Keys(rest);
      [m[0]] + rest
  }

  /** After `set`, `get` returns the new value for the key and the old value for every other key. */
  lemma {:induction false} PutGet<K(!new), V>(m: seq<(K, V)>, k: K, v: V, x: K)
    ensures Get(Put(m, k, v), x) == if x == k then Some(v) else Get(m, x)
  {
    if m != [] && m[0].0 != k {
      PutGet(m[1..], k, v, x);
    }
  }

  /** `set` keeps the keys distinct. */
  lemma PutDistinct<K(!new), V>(m: seq<(K, V)>, k: K, v: V)
    requires Distinct(Keys(m))
    ensures Distinct(Keys(Put(m, k, v)))
  {
    if k !in Keys(m) {
      assert Keys(m + [(k, v)]) == Keys(m) + [k];
    }
  }

  /** The keys in order of first occurrence, each once. */
  function Dedup<K(==,!new)>(ks: seq<K>): (r: seq<K>)
    ensures forall x :: x in r <==> x in ks
    ensures Distinct(r)
  {
    if ks == [] then []
    else
      var d := Dedup(ks[..|ks| - 1]);
      var x := ks[|ks| - 1];
      assert ks == ks[..|ks| - 1] + [x];
      if x in d then d else d + [x]
  }

  /** The value of the last pair with key `k`. */
  function LastValue<K(==,!new), V>(ps: seq<(K, V)>, k: K): Option<V> {
    if ps == [] then None
    else if ps[|ps| - 1].0 == k then Some(ps[|ps| - 1].1)
    else LastValue(ps[..|ps| - 1], k)
  }

  /** `new Map(pairs)`: the pairs set one after another into an empty map. */
  function FromPairs<K(==,!new), V>(ps: seq<(K, V)>): (m: seq<(K, V)>)
    ensures Distinct(Keys(m))
  {
    if ps == [] then []
    else
      var m := FromPairs(ps[..|ps| - 1]);
      PutDistinct(m, ps[|ps| - 1].0, ps[|ps| - 1].1);
      Put(m, ps[|ps| - 1].0, ps[|ps| - 1].1)
  }

  /** The map's keys are the pairs' keys in order of first occurrence. */
  lemma {:induction false} FromPairsKeys<K(!new), V>(ps: seq<(K, V)>)
    ensures Keys(FromPairs(ps)) == Dedup(Keys(ps))
  {
    if ps != [] {
      var init := ps[..|ps| - 1];
      var last := ps[|ps| - 1];
      FromPairsKeys(init);
      assert Keys(ps)[..|ps| - 1] == Keys(init);
      var m := FromPairs(init);
      if last.0 !in Keys(m) {
        assert Keys(m + [last]) == Keys(m) + [last.0];
      }
    }
  }

  /** The map holds, for each key, the value of the last pair with that key. */
  lemma {:induction false} FromPairsGet<K(!new), V>(ps: seq<(K, V)>, k: K)
    ensures Get(FromPairs(ps), k) == LastValue(ps, k)
  {
    if ps != [] {
      FromPairsGet(ps[..|ps| - 1], k);
      PutGet(FromPairs(ps[..|ps| - 1]), ps[|ps| - 1].0, ps[|ps| - 1].1, k);
    }
  }
}

=== FILE: results.dfy ===
/** Optional values and the outcome of an operation that may throw. */
module Results {

  /** A value that may be missing (JavaScript `undefined` or `null`). */
  datatype Option<+T> = None | Some(value: T)

  /** The result of a computation that either returns a value or throws an error. */
  datatype Result<+T, +E> = Ok(value: T) | Err(error: E)

  /**
    `xs.map(g)` for a `g` that may throw: every result when no call throws,
    otherwise the failure of the first call that does.
   */
  function TryMap<A, B, E>(xs: seq<A>, g: A -> Result<B, E>): (r: Option<seq<B>>)
    ensures r.Some? <==> forall i :: 0 <= i < |xs| ==> g(xs[i]).Ok?
    ensures r.Some? ==> |r.value| == |xs| && forall i :: 0 <= i < |xs| ==> r.value[i] == g(xs[i]).value
  {
    if xs == [] then Some([])
    else
      var head := g(xs[0]);
      var rest := TryMap(xs[1..], g);
      assert forall i :: 0 < i < |xs| ==> xs[i] == xs[1..][i - 1];
      if head.Err? || rest.None? then None
      else Some([head.value] + rest.value)
  }
}

=== FILE: text.dfy ===
/**
  The string primitives the orbit parser is built from, as JavaScript defines
  them: the white-space class shared by `String.prototype.trim` and the regular
  expression `\s`, trimming, `split(/\s+/)`, and `Array.prototype.join(" ")`.
  `Words` is an independent reference definition (the maximal runs of
  non-space characters) against which trimming and splitting are proved.
 */
module Text {

  /** The white-space and line-terminator characters outside the range U+2000 to U+200A. */
  const SpaceChars: set<char> := {
    ' ', '\t', '\n', '\r', '\U{B}', '\U{C}', '\U{A0}', '\U{1680}',
    '\U{2028}', '\U{2029}', '\U{202F}', '\U{205F}', '\U{3000}', '\U{FEFF}'
  }

  /** White space and line terminators, the characters `trim` removes and `\s` matches. */
  predicate IsSpace(c: char) {
    c in SpaceChars || ('\U{2000}' <= c <= '\U{200A}')
  }

  predicate NoSpace(s: string) {
    forall i :: 0 <= i < |s| ==> !IsSpace(s[i])
  }

  /** A token of the orbit grammar: non-empty and free of white space. */
  predicate IsToken(s: string) {
    |s| > 0 && NoSpace(s)
  }

  /** Length of the leading run of non-space characters. */
  function WordLength(s: string): (k: nat)
    ensures k <= |s|
    ensures NoSpace(s[..k])
    ensures k < |s| ==> IsSpace(s[k])
  {
    if s == [] || IsSpace(s[0]) then 0
    else
      var k := 1 + WordLength(s[1..]);
      assert s[..k] == [s[0]] + s[1..][..k - 1];
      k
  }

  /** Length of the leading run of space characters. */
  function SpaceLength(s: string): (k: nat)
    ensures k <= |s|
    ensures forall i :: 0 <= i < k ==> IsSpace(s[i])
    ensures k < |s| ==> !IsSpace(s[k])
  {
    if s == [] || !IsSpace(s[0]) then 0 else 1 + SpaceLength(s[1..])
  }

  /** `String.prototype.trimStart`. */
  function TrimStart(s: string): string {
    s[SpaceLength(s)..]
  }

  /** `String.prototype.trimEnd`. */
  function TrimEnd(s: string): (t: string)
    ensures t <= s
    ensures t == [] || !IsSpace(t[|t| - 1])
    ensures forall i :: |t| <= i < |s| ==> IsSpace(s[i])
  {
    if s != [] && IsSpace(s[|s| - 1]) then TrimEnd(s[..|s| - 1]) else s
  }

  /** `String.prototype.trim`. */
  function Trim(s: string): (t: string)
    ensures t == [] || (!IsSpace(t[0]) && !IsSpace(t[|t| - 1]))
  {
    TrimEnd(TrimStart(s))
  }

  /**
    `t.split(/\s+/)`: the pieces between maximal runs of white space. A leading
    or trailing run yields an empty piece, and the empty string splits into [""].
   */
  function SplitWs(t: string): (parts: seq<string>)
    ensures |parts| >= 1
    decreases |t|
  {
    var k := WordLength(t);
    if k == |t| then [t]
    else
      var rest := t[k..];
      [t[..k]] + SplitWs(rest[SpaceLength(rest)..])
  }

  /** The words of `s`: its maximal runs of non-space characters, in order. */
  function Words(s: string): seq<string>
    decreases |s|
  {
    if s == [] then []
    else if IsSpace(s[0]) then Words(s[1..])
    else
      var k := WordLength(s);
      [s[..k]] + Words(s[k..])
  }

  /** `items.join(" ")`. */
  function Join(items: seq<string>): string {
    if |items| == 0 then ""
    else if |items| == 1 then items[0]
    else items[0] + " " + Join(items[1..])
  }

  /** The words of every item, in order. */
  function WordsOfAll(items: seq<string>): seq<string> {
    if items == [] then [] else Words(items[0]) + WordsOfAll(items[1..])
  }

  /** Every word is a token. */
  lemma {:induction false} WordsAreTokens(s: string)
    ensures forall i :: 0 <= i < |Words(s)| ==> IsToken(Words(s)[i])
    decreases |s|
  {
    if s == [] {
    } else if IsSpace(s[0]) {
      WordsAreTokens(s[1..]);
    } else {
      var k := WordLength(s);
      WordsAreTokens(s[k..]);
    }
  }

  /** A token is one word. */
  lemma WordsOfToken(w: string)
    requires IsToken(w)
    ensures Words(w) == [w]
  {
    WordLengthOfNoSpace(w);
    assert w[..|w|] == w;
  }

  lemma {:induction false} WordLengthOfNoSpace(w: string)
    requires NoSpace(w)
    ensures WordLength(w) == |w|
    decreases |w|
  {
    if w != [] {
      WordLengthOfNoSpace(w[1..]);
    }
  }

  /** Leading white space does not change the words. */
  lemma {:induction false} WordsSkipSpaces(s: string, n: nat)
    requires n <= |s|
    requires forall i :: 0 <= i < n ==> IsSpace(s[i])
    ensures Words(s[n..]) == Words(s)
    decreases n
  {
    if n > 0 {
      WordsSkipSpaces(s[1..], n - 1);
      assert s[1..][n - 1..] == s[n..];
    }
  }

  /** A word ends where the text ends or at a space, whatever follows. */
  lemma {:induction false} WordLengthExtend(a: string, x: string)
    requires WordLength(a) < |a| || (x != [] && IsSpace(x[0]))
    ensures WordLength(a + x) == WordLength(a)
    decreases |a|
  {
    if a == [] {
    } else if IsSpace(a[0]) {
    } else {
      assert (a + x)[1..] == a[1..] + x;
      WordLengthExtend(a[1..], x);
    }
  }

  /** A space between two strings separates their words. */
  lemma {:induction false} WordsConcatSpace(a: string, c: char, b: string)
    requires IsSpace(c)
    ensures Words(a + [c] + b) == Words(a) + Words(b)
    decreases |a|
  {
    var s := a + [c] + b;
    if a == [] {
      assert s[1..] == b;
    } else if IsSpace(a[0]) {
      assert s[1..] == a[1..] + [c] + b;
      WordsConcatSpace(a[1..], c, b);
    } else {
      var k := WordLength(a);
      WordLengthExtend(a, [c] + b);
      assert s == a + ([c] + b);
      assert s[..k] == a[..k];
      assert s[k..] == a[k..] + [c] + b;
      WordsConcatSpace(a[k..], c, b);
    }
  }

  /** Trailing white space does not change the words. */
  lemma {:induction false} WordsTrimEnd(s: string)
    ensures Words(TrimEnd(s)) == Words(s)
    decreases |s|
  {
    if s != [] && IsSpace(s[|s| - 1]) {
      var p := s[..|s| - 1];
      WordsTrimEnd(p);
      WordsConcatSpace(p, s[|s| - 1], []);
      assert p + [s[|s| - 1]] + [] == s;
    }
  }

  /** Trimming does not change the words. */
  lemma WordsTrim(s: string)
    ensures Words(Trim(s)) == Words(s)
  {
    WordsSkipSpaces(s, SpaceLength(s));
    WordsTrimEnd(TrimStart(s));
  }

  /** One step of `SplitWs`: the first word, then the split of what follows the next run of spaces. */
  lemma SplitStep(t: string)
    requires WordLength(t) < |t|
    ensures
      var k := WordLength(t);
      SplitWs(t) == [t[..k]] + SplitWs(t[k..][SpaceLength(t[k..])..])
  {
  }

  /** One step of `Words` on a string that starts with a word. */
  lemma WordsStep(t: string)
    requires t != [] && !IsSpace(t[0])
    ensures Words(t) == [t[..WordLength(t)]] + Words(t[WordLength(t)..])
  {
  }

  /** In a string ending with a non-space, the spaces after the first word are followed by more text. */
  lemma SpacesThenWord(t: string)
    requires WordLength(t) < |t| && !IsSpace(t[|t| - 1])
    ensures
      var rest := t[WordLength(t)..];
      var n := SpaceLength(rest);
      n < |rest| && !IsSpace(rest[n..][0]) && rest[n..][|rest[n..]| - 1] == t[|t| - 1]
  {
    var rest := t[WordLength(t)..];
    assert rest[|rest| - 1] == t[|t| - 1];
  }

  /** On a string that neither starts nor ends with white space, split yields its words. */
  lemma {:induction false} SplitIsWords(t: string)
    requires t != [] && !IsSpace(t[0]) && !IsSpace(t[|t| - 1])
    ensures SplitWs(t) == Words(t)
    decreases |t|
  {
    var k := WordLength(t);
    WordsStep(t);
    if k < |t| {
      var rest := t[k..];
      var n := SpaceLength(rest);
      SpacesThenWord(t);
      SplitStep(t);
      SplitIsWords(rest[n..]);
      WordsSkipSpaces(rest, n);
    } else {
      assert t[..k] == t;
      assert t[k..] == [];
    }
  }

  /** `s.trim().split(/\s+/)` is [""] when `s` has no words, and its words otherwise. */
  lemma SplitTrimmed(s: string)
    ensures Words(s) == [] ==> SplitWs(Trim(s)) == [""]
    ensures Words(s) != [] ==> SplitWs(Trim(s)) == Words(s)
  {
    var t := Trim(s);
    WordsTrim(s);
    if t == [] {
      assert SplitWs(t) == [t];
    } else {
      WordsStep(t);
      SplitIsWords(t);
    }
  }

  /** The words of a space-joined array are the words of its items. */
  lemma {:induction false} WordsOfJoin(items: seq<string>)
    ensures Words(Join(items)) == WordsOfAll(items)
    decreases |items|
  {
    if |items| == 1 {
      assert items[1..] == [];
    } else if |items| > 1 {
      WordsOfJoin(items[1..]);
      WordsConcatSpace(items[0], ' ', Join(items[1..]));
    }
  }

  /** An array of tokens contributes each item as one word. */
  lemma {:induction false} WordsOfAllTokens(items: seq<string>)
    requires forall i :: 0 <= i < |items| ==> IsToken(items[i])
    ensures WordsOfAll(items) == items
    decreases |items|
  {
    if items != [] {
      WordsOfToken(items[0]);
      WordsOfAllTokens(items[1..]);
    }
  }

  /** Three tokens joined by single spaces are three words. */
  lemma WordsOfTriple(a: string, b: string, c: string)
    requires IsToken(a) && IsToken(b) && IsToken(c)
    ensures Words(a + " " + b + " " + c) == [a, b, c]
  {
    WordsConcatSpace(a + " " + b, ' ', c);
    WordsConcatSpace(a, ' ', b);
    WordsOfToken(a);
    WordsOfToken(b);
    WordsOfToken(c);
  }
}

=== FILE: views.dfy ===
/**
  Views and their loading. A view file entry is read into a normalised
  `View`: the label defaults to the id, the position is kept only when it is
  an array, the orbit is parsed by the flexible parser and the field of view
  is kept as text. Loading is all or nothing: a missing `views` array or any
  orbit that does not parse leaves the collection empty.
 */
module Views {
  import opened Results
  import opened Text
  import opened Geometry
  import opened Orbits

  /** A normalised view. */
  datatype View = View(
    id: string,
    caption: string,            // the `label` member
    position: Option<seq<real>>,
    orbit: OrbitTokens,
    fov: Option<string>)

  /** The `fov` member of a view entry, by JavaScript type. */
  datatype FovInput =
    | FovUndefined
    | FovString(text: string)
      /** A number, boolean or `null`: its template rendering and its truthiness. */
    | FovOther(rendered: string, truthy: bool)

  /** A view entry as read from the view file. */
  datatype RawView = RawView(
    id: string,
    caption: Option<string>,            // the `label` member; None when absent or null
    position: Option<seq<real>>,        // Some exactly when the member is an array
    orbit: OrbitInput,
    fov: FovInput)

  /** `v.position && v.position.length === 3`. */
  predicate HasPosition(v: View) {
    v.position.Some? && |v.position.value| == 3
  }

  /** The desired camera location of a view with a position. */
  function PositionPoint(v: View): Point3
    requires HasPosition(v)
  {
    Point3(v.position.value[0], v.position.value[1], v.position.value[2])
  }

  /** `if (v.fov)`: a field of view that is present and non-empty. */
  predicate HasFov(v: View) {
    v.fov.Some? && v.fov.value != ""
  }

  /** `v.fov ? (typeof v.fov === "string" ? v.fov : `${v.fov}deg`) : undefined`. */
  function NormalizeFov(fov: FovInput): (r: Option<string>)
    ensures r.Some? ==> r.value != ""
    ensures fov.FovString? && fov.text != "" ==> r == Some(fov.text)
    ensures fov.FovOther? && fov.truthy ==> r == Some(fov.rendered + "deg")
    ensures r.None? <==> (fov.FovUndefined? || fov == FovString("") || (fov.FovOther? && !fov.truthy))
  {
    match fov
    case FovUndefined => None
    case FovString(s) => if s != "" then Some(s) else None
    case FovOther(text, truthy) => if truthy then Some(text + "deg") else None
  }

  /** `label || id` for a label that may be missing. */
  function LabelOrId(caption: Option<string>, id: string): (r: string)
    ensures caption.Some? && caption.value != "" ==> r == caption.value
    ensures caption.None? || caption.value == "" ==> r == id
    ensures r == "" ==> id == ""
  {
    if caption.Some? && caption.value != "" then caption.value else id
  }

  /** A view as loading leaves it: a label that is empty only with an empty id, and no empty fov. */
  predicate Normalized(v: View) {
    && (v.caption == "" ==> v.id == "")
    && (v.fov.Some? ==> v.fov.value != "")
  }

  /** One entry of the `views.map(...)` in `loadViews`; fails when its orbit does not parse. */
  function NormalizeView(rv: RawView, f: NumberFormat): (res: Result<View, OrbitError>)
    ensures res.Ok? <==> ParseOrbitFlexible(rv.orbit, f).Ok?
    ensures res.Ok? ==>
      && res.value.id == rv.id
      && res.value.caption == LabelOrId(rv.caption, rv.id)
      && res.value.position == rv.position
      && res.value.orbit == ParseOrbitFlexible(rv.orbit, f).value
      && res.value.fov == NormalizeFov(rv.fov)
    ensures res.Ok? ==> Normalized(res.value)
  {
    match ParseOrbitFlexible(rv.orbit, f)
    case Err(e) => Err(e)
    case Ok(o) => Ok(View(rv.id, LabelOrId(rv.caption, rv.id), rv.position, o, NormalizeFov(rv.fov)))
  }

  /**
    `loadViews`: `doc` is the `views` member of the fetched file, `None` when
    the fetch failed or the member is not an array. Every entry is normalised,
    or, as soon as one orbit fails to parse, the collection is left empty.
   */
  function LoadViews(doc: Option<seq<RawView>>, f: NumberFormat): (views: seq<View>)
    ensures doc.None? ==> views == []
    ensures doc.Some? && (exists i :: 0 <= i < |doc.value| && NormalizeView(doc.value[i], f).Err?) ==> views == []
    ensures doc.Some? && (forall i :: 0 <= i < |doc.value| ==> NormalizeView(doc.value[i], f).Ok?) ==>
      && |views| == |doc.value|
      && forall i :: 0 <= i < |views| ==> views[i] == NormalizeView(doc.value[i], f).value
  {
    match doc
    case None => []
    case Some(raw) =>
      match TryMap(raw, rv => NormalizeView(rv, f))
      case None => []
      case Some(vs) => vs
  }
}
